=== FILE: README.md ===
# AI product generator for Shopify, data-shaping core in Dafny

A Shopify app asks a chat-completion model to write a product, shows it for editing, and creates it in the store together with its variants and images. This project models the deterministic part of that pipeline and proves its properties. The parts that talk to other services become oracles.

- **Product validation** (`validateProduct`). Three checks run in order; the first that fails gives its message.
- **Cleaning the AI answer** (`generateProductWithAI`). The key check comes first. Then the fenced-markdown removal with `/```json|```/g` and `trim` run before JSON parsing.
- **Preview and save** (`ProductPreviewModal`). This covers the initial price and tag text, the comma-separated tag parsing, and the product object submitted on save.
- **Data-URI normalisation** (`uploadImage`). This feeds the image host.
- **Product creation** (`createProduct`, `createAdditionalVariants`). This covers the `productCreate` input with its defaults, the variant inputs with theirs, and the user-error checks.
- **Media** (`uploadProductImages`, `uploadBase64ToShopify`). Each image is a URL, base64 data or junk:
  - a URL is used as it is;
  - base64 data goes through a staged upload, with a placeholder when that fails;
  - junk is dropped.

  The survivors become one `productCreateMedia` mutation. The staged upload's `multipart/form-data` body is built by hand:
  - delimiter lines and the close delimiter follow section 5.1.1 of RFC 2046;
  - `Content-Disposition` headers follow section 4.2 of RFC 7578.

The modules build on each other as follows.

- **JavaScript values.** `JsString` and `JsValue` model the JavaScript values the code handles:
  - `Value` covers undefined, null, booleans, numbers kept as their canonical string form, strings, arrays and plain objects;
  - truthiness, `?.` (`Get`), strict property access that throws on null or undefined (`Prop`), and indexing (`Index`);
  - `||` (`Or`), `toString`, `Array.prototype.join`, `String.prototype.split` with a one-character separator, `trim`, and object and array spread.
- **Errors.** A thrown exception is an `Err` of `Result`. `TypeError` stands for the engine's own errors, and `Error(message)` for the code's `new Error(message)`.
- **Utf8.** `Utf8` gives the UTF-8 encoding that `Buffer.from(string)` performs. A strict decoder, following section 3 of RFC 3629, is its partner: decoding the bytes gives back the text.
- **ShopifyAdmin.** `ShopifyAdmin` declares the requests the code sends to the store: the GraphQL mutations and the staged-upload POST. The store's answers come from an oracle `Network`.
  - Every operation that talks to the store returns `Run(result, sent)`: its outcome together with the requests it issued, in order.
  - "Before any request" therefore reads `sent == []`.
- **Multipart body.** `UploadMedia.BuildMultipartBody` grows the list of text parts step by step, as the code does. It is proved equal to the function `UploadMedia.MultipartBody`, whose layout is proved in `UploadMedia.MultipartLayout`.

## Model

| member | source | states |
|---|---|---|
| ValidateProduct.ValidateProduct | app/utils/validateProduct.js:1-6 | null exactly when title, descriptionHtml and a truthy variants length are all present; otherwise the message of the first failing check, in the order title, description, variants |
| ValidateProduct.NullishProductLacksTitle | app/utils/validateProduct.js:2 | a null or undefined product is reported as missing its title |
| ValidateProduct.VariantArrayCheck | app/utils/validateProduct.js:4 | for an array of variants the check passes exactly when the array is non-empty |
| ValidateProduct.MissingVariantsFail | app/utils/validateProduct.js:4 | with title and description present, missing variants give "At least one variant required" |
| BigModel.StripFences | app/bigmodel.server.js:177 | the global replace of ```` ```json ```` or ```` ``` ````, tried in that order at each position, never lengthens the text |
| BigModel.NoFenceRemains | app/bigmodel.server.js:177 | after the replace no three backticks in a row remain, even where removing a fence brings backticks together |
| BigModel.StripFencesNoBacktick | app/bigmodel.server.js:177 | text without backticks is left as it is |
| BigModel.StripFencesKeepsPlainPrefix | app/bigmodel.server.js:177 | a backtick-free prefix is kept and does not change how the rest is treated |
| BigModel.StripFencesFenceFree | app/bigmodel.server.js:177 | text with no three backticks in a row is left as it is |
| BigModel.CleanContent | app/bigmodel.server.js:177 | the text handed to JSON.parse has no surrounding whitespace and no fence |
| BigModel.CleanContentIdempotent | app/bigmodel.server.js:177 | cleaning already cleaned content changes nothing |
| BigModel.CleanNoBacktick | app/bigmodel.server.js:177 | for backtick-free text, cleaning is plain trimming |
| BigModel.CleanFencedJson | app/bigmodel.server.js:177 | wrapping backtick-free text in a ```` ```json ```` fence does not change the cleaned text |
| BigModel.ReplyContent | app/bigmodel.server.js:175 | reading `data.choices?.[0]?.message?.content` throws exactly when the reply body is null or undefined, and then with a TypeError |
| BigModel.GenerateProductWithAI | app/bigmodel.server.js:123-179 | a missing key fails with "BIGMODEL_API_KEY is missing"; a non-2xx answer fails with its body text; a failed fetch passes its error on; a null or undefined JSON body throws a TypeError reading `choices`; string content is parsed after cleaning; other content throws a TypeError |
| BigModel.MissingKeyFailsFirst | app/bigmodel.server.js:123-126 | with a missing key the outcome does not depend on the service's reply or the parser |
| BigModel.ReplyContentOf | app/bigmodel.server.js:175 | a reply `{choices: [{message: {content: c}}]}` yields the content c |
| BigModel.FencedReplySameProduct | app/bigmodel.server.js:175-179 | a reply fenced as ```` ```json ```` yields the same product as the bare JSON text |
| Cloudinary.ToDataUri | app/lib/cloudinary.server.js:12-15 | the result always starts with "data:image/"; input already starting so is passed through; anything else gets the "data:image/png;base64," prefix |
| Cloudinary.ToDataUriIdempotent | app/lib/cloudinary.server.js:12-15 | normalising twice is normalising once |
| Cloudinary.UploadImage | app/lib/cloudinary.server.js:9-28 | a falsy image fails with "No image provided"; a non-string throws a TypeError; otherwise the host's `secure_url` for the data URI, or the host's error |
| Cloudinary.FalsyImageNotUploaded | app/lib/cloudinary.server.js:10 | a falsy image fails the same way whatever the host would answer |
| ProductPreview.InitialPrice | app/components/ProductPreviewModal.jsx:111 | the first variant's price when truthy, otherwise "0.00"; throws exactly when the product or its variants are null or undefined |
| ProductPreview.NoVariantStartsAtDefault | app/components/ProductPreviewModal.jsx:111 | a product with an empty variant list starts at "0.00" |
| ProductPreview.InitialTagText | app/components/ProductPreviewModal.jsx:112 | the tags joined by ", "; throws a TypeError when the tags are not an array |
| ProductPreview.TrimmedTags | app/components/ProductPreviewModal.jsx:145 | trimming the pieces and dropping empty ones leaves no empty or padded tag |
| ProductPreview.ParseTags | app/components/ProductPreviewModal.jsx:145 | no parsed tag is empty or has surrounding whitespace |
| ProductPreview.ParsedTagsHaveNoComma | app/components/ProductPreviewModal.jsx:145 | no parsed tag contains a comma |
| ProductPreview.ParseTagsAfterSpace | app/components/ProductPreviewModal.jsx:145 | a leading space does not change the parsed tags |
| ProductPreview.ParseJoinedTags | app/components/ProductPreviewModal.jsx:145 | parsing the ", "-joined text of non-empty, trimmed, comma-free tags gives the tags back, also for an empty list |
| ProductPreview.ParseTagsStable | app/components/ProductPreviewModal.jsx:145 | joining parsed tags and parsing again gives the same tags |
| ProductPreview.WithSavedFields | app/components/ProductPreviewModal.jsx:142-146 | the product's fields with title, tags and variants set, and no other field added |
| ProductPreview.WithPrice | app/components/ProductPreviewModal.jsx:147-150 | the first variant's fields with the price replaced, and no other field added |
| ProductPreview.SavePayload | app/components/ProductPreviewModal.jsx:142-152 | the payload carries the edited title and the parsed tags; it throws exactly when the product or its variants are null or undefined |
| ProductPreview.SavedSingleVariant | app/components/ProductPreviewModal.jsx:146-151 | exactly one variant is saved: the first variant's fields with the edited price |
| ProductPreview.SavedFieldsCopied | app/components/ProductPreviewModal.jsx:142-145 | every product field other than title, tags and variants is copied unchanged, and nothing else is added |
| ProductPreview.UneditedTagsSurvive | app/components/ProductPreviewModal.jsx:145 | saving the initial tag text of clean tags saves the original tags |
| CreateProduct.ProductInputOf | app/graphql/createProduct.js:26-35 | title, descriptionHtml and tags are copied; vendor defaults to "AI Generated" and productType to "AI Product" when falsy; status is "ACTIVE"; a null or undefined product throws |
| CreateProduct.ProductInputDefaultsTruthy | app/graphql/createProduct.js:31-32 | the vendor and product type sent are always truthy |
| CreateProduct.PriceText | app/graphql/createProduct.js:82 | the price's string form, or "0.00" when the price is missing or prints empty; never empty |
| CreateProduct.VariantInputOf | app/graphql/createProduct.js:81-90 | price as above; compareAtPrice null when falsy, otherwise its string form; exactly one option value named "Title" whose value is option1 or "Default"; a null or undefined variant throws |
| CreateProduct.VariantInputsOf | app/graphql/createProduct.js:79-91 | the mapping keeps length and order; it throws exactly when some variant is null or undefined |
| CreateProduct.VariantsReply | app/graphql/createProduct.js:96-102 | when the user errors (missing ones read as []) have no truthy length, such as [], the result is the created variants or []; user errors of truthy length fail with "Variant creation failed: " followed by their messages joined by ", ", or with a TypeError when the messages cannot be read |
| CreateProduct.VariantUserErrors | app/graphql/createProduct.js:96-100 | user errors fail with "Variant creation failed: " and the messages joined by ", " |
| CreateProduct.CreateAdditionalVariants | app/graphql/createProduct.js:74-103 | a missing or empty list gives null without any request; otherwise at most the one bulk mutation, carrying the mapped variants; once it is sent, a failed request passes its error on and a reply is decided by the variant reply; without a request, any result other than null is a TypeError; a non-empty list that is not an array, or an array holding a null or undefined variant, throws a TypeError before any request |
| CreateProduct.VariantsSent | app/graphql/createProduct.js:79-93 | non-null variants are mapped without error and sent as exactly one bulk mutation for the given product |
| CreateProduct.VariantsMappedInOrder | app/graphql/createProduct.js:79-93 | for an array of variants, the one mutation lists every mapped variant in order, for the given product |
| CreateProduct.CreatePayload | app/graphql/createProduct.js:37-39 | `data.data.productCreate` of the reply; throws a TypeError exactly when the reply or its `data` is null or undefined |
| CreateProduct.CreatedProduct | app/graphql/createProduct.js:37-46 | a failed request passes its error on; a null or undefined data, data.data, productCreate or userErrors throws a TypeError, because line 40 reads them without `?.`; present user errors of falsy length give the payload's product, and success happens only then; user errors of truthy length fail with their messages joined by ", ", or with a TypeError |
| CreateProduct.CreateProduct | app/graphql/createProduct.js:24-56 | a null or undefined product throws before any request; otherwise the first request is productCreate with the mapped input, and a failing request or reply of it is the result with nothing more sent; without variants of positive length the created product is returned; with them, a null created product throws reading `id`, and otherwise the variant requests follow and their failure is the result, else the created product is |
| CreateProduct.CleanCreateReply | app/graphql/createProduct.js:37-46 | a productCreate reply with empty user errors gives its product |
| CreateProduct.CleanBulkReply | app/graphql/createProduct.js:96-102 | a productVariantsBulkCreate reply with empty user errors gives its variants, or [] when they are missing |
| CreateProduct.CleanVariantsRun | app/graphql/createProduct.js:74-103 | non-null variants with a clean bulk reply give the created variants |
| CreateProduct.ReplyDecides | app/graphql/createProduct.js:93-102 | once the bulk mutation is sent, its reply alone decides the result |
| CreateProduct.CreatedWithoutVariants | app/graphql/createProduct.js:37-55 | a product without variants and a clean productCreate reply give exactly one request and the created product |
| CreateProduct.CreatedWithVariants | app/graphql/createProduct.js:46-55 | a product with non-null variants and clean replies to both mutations returns the created product |
| CreateProduct.CreationThenVariants | app/graphql/createProduct.js:46-53 | once the product is created with non-empty variants, the requests are productCreate followed by exactly those of the variant creation for the created id |
| CreateProduct.ProductUserErrorsStop | app/graphql/createProduct.js:40-44 | productCreate user errors fail with their messages joined by ", ", and no variant mutation is sent |
| CreateProduct.CreatedUserErrors | app/graphql/createProduct.js:40-44 | a productCreate reply with user errors fails with their messages joined by ", " |
| CreateProduct.NullVariantFails | app/graphql/createProduct.js:48-53 | a product whose variants hold a null or undefined entry fails with a TypeError, even though productCreate succeeded |
| CreateProduct.VariantsOnlyWhenPresent | app/graphql/createProduct.js:48-53 | the variant mutation is sent only when the product's variants have a positive length, never for an empty array |
| CreateProduct.VariantsFollowCreation | app/graphql/createProduct.js:46-53 | non-empty variants are sent once, for the created product's id |
| ShopifyAdmin.MessagesOfElems | app/graphql/uploadMedia.js:75 | one message per error, in order; throws exactly when an error is null or undefined |
| ShopifyAdmin.JoinedMessages | app/graphql/uploadMedia.js:75 | the messages joined by ", "; throws a TypeError when the errors are not an array or hold a null entry |
| UploadMedia.ParamParts | app/graphql/uploadMedia.js:93-98 | four parts per staged parameter; a null or undefined parameter throws |
| UploadMedia.ParamsParts | app/graphql/uploadMedia.js:92-99 | four parts per parameter; throws exactly when some parameter is null or undefined |
| UploadMedia.TextParts | app/graphql/uploadMedia.js:89-105 | four parts per parameter and then the file header last; throws a TypeError exactly when the parameters are an array holding null or undefined |
| UploadMedia.MultipartBody | app/graphql/uploadMedia.js:107-115 | the body exists exactly when its text parts do; otherwise a TypeError |
| UploadMedia.PayloadBeforeClose | app/graphql/uploadMedia.js:111-115 | the payload bytes sit unchanged just before the close delimiter, whatever the parameters |
| UploadMedia.BuildMultipartBody | app/graphql/uploadMedia.js:89-115 | the body built by pushing parts one by one equals the specified multipart body, including the error case |
| UploadMedia.ParamsLines | app/graphql/uploadMedia.js:92-99 | the parameters' parts, each followed by CRLF, are the parameter parts of the body in their given order |
| UploadMedia.MultipartLayout | app/graphql/uploadMedia.js:88-115 | the parameter parts in order, each as delimiter line, Content-Disposition line, empty line and value; then the file part's header; then the payload bytes unchanged; then CRLF and the close delimiter; the body opens with a delimiter line |
| UploadMedia.MultipartWithoutParameters | app/graphql/uploadMedia.js:92-105 | without a parameter array the body is the file part alone |
| UploadMedia.StagedTarget | app/graphql/uploadMedia.js:71-82 | a null reply throws a TypeError; user errors of positive length fail with their messages joined by ", " (or the TypeError of reading them); otherwise the staged upload when it and its URL are truthy, else "No staged upload URL received from Shopify"; on success the user errors have no positive length |
| UploadMedia.StagedTargetOfReply | app/graphql/uploadMedia.js:71-82 | a reply with an empty user-error list and a staged upload that has a URL yields that staged upload |
| UploadMedia.StagedUserErrorOfReply | app/graphql/uploadMedia.js:71-76 | a reply with one user error fails with that error's message, whatever the staged upload |
| UploadMedia.StagedPostResult | app/graphql/uploadMedia.js:118-133 | a failed POST passes its error on; a null answer throws a TypeError; a falsy `ok` fails with "Staged upload failed: " and the status text; a truthy `ok` returns the staged upload's resourceUrl |
| UploadMedia.UploadBase64ToShopify | app/graphql/uploadMedia.js:51-140 | a payload shorter than 100 characters fails before any request; otherwise stagedUploadCreate is sent first, and at most the multipart POST follows, whose boundary appears in its content type; only staged requests are sent; success needs both requests and returns the resourceUrl of the staged target; when the POST was sent, its answer decides the result as in StagedPostResult |
| UploadMedia.StagedCreateFailures | app/graphql/uploadMedia.js:60-115 | when only stagedUploadCreate was sent the upload failed, with the request's error, the staged target's failure, or the TypeError of building the body |
| UploadMedia.StagedPostBody | app/graphql/uploadMedia.js:84-126 | the POST goes to the staged URL and carries the multipart body of the staged parameters and the decoded payload |
| UploadMedia.ClassifyCases | app/graphql/uploadMedia.js:154-180 | a URL string is used as it is whatever its length; any other string longer than 100 is uploaded; everything else is dropped |
| UploadMedia.ImageFileNameShape | app/graphql/uploadMedia.js:168 | a file name is "image-", the 1-based index in decimal, then ".jpg" |
| UploadMedia.ImageFileNamesDistinct | app/graphql/uploadMedia.js:168 | different images get different file names |
| UploadMedia.PlaceholderShape | app/graphql/uploadMedia.js:174 | a placeholder is the picsum address followed by the decimal clock reading plus the index |
| UploadMedia.ProcessImage | app/graphql/uploadMedia.js:152-185 | processing one image issues only staged-upload requests |
| UploadMedia.RequestsOf | app/graphql/uploadMedia.js:152-187 | the requests issued for all images, in index order, are all staged-upload requests |
| UploadMedia.ProcessImages | app/graphql/uploadMedia.js:152-187 | the processed list has one entry per image, each the result for that image and its index, in order |
| UploadMedia.Survivors | app/graphql/uploadMedia.js:188 | only non-empty strings survive the filter |
| UploadMedia.SurvivorsAppend | app/graphql/uploadMedia.js:188 | the filter keeps relative order: survivors of a concatenation are the survivors of each half, in order |
| UploadMedia.SurvivorsOne | app/graphql/uploadMedia.js:188 | a single value survives exactly when it is a non-empty string |
| UploadMedia.MediaInputs | app/graphql/uploadMedia.js:198-205 | one media entry per survivor; entry i is an IMAGE whose source is the i-th survivor and whose alt text is "Product image " followed by the decimal of i + 1 |
| UploadMedia.MediaAltsDistinct | app/graphql/uploadMedia.js:203 | media entries have pairwise different alt texts "Product image {i + 1}" |
| UploadMedia.PlaceholdersDistinct | app/graphql/uploadMedia.js:174 | placeholders taken at the same clock reading differ between images |
| UploadMedia.MediaReply | app/graphql/uploadMedia.js:209-228 | a null reply throws; truthy top-level errors always fail |
| UploadMedia.MediaTopLevelErrors | app/graphql/uploadMedia.js:211-214 | top-level GraphQL errors fail with their messages joined by ", " |
| UploadMedia.MediaUserErrors | app/graphql/uploadMedia.js:216-228 | user errors then media user errors fail with all their messages joined by ", "; with neither, the created media are returned |
| UploadMedia.UploadProductImages | app/graphql/uploadMedia.js:142-233 | a falsy list, or one of length 0, gives [] without any request; any other non-array throws a TypeError before any request; the media mutation is sent at most once, and last |
| UploadMedia.NothingSurvivesNoMutation | app/graphql/uploadMedia.js:187-193 | when nothing survives, the result is [] and no media mutation is sent |
| UploadMedia.MediaMutationShape | app/graphql/uploadMedia.js:190-231 | the media mutation is sent exactly when something survives, after the staged uploads, listing the survivors in order; its reply decides the result, and a failed media request is rethrown |
| UploadMedia.UrlKeptVerbatim | app/graphql/uploadMedia.js:160-162 | an http or https URL is kept verbatim, without any request |
| UploadMedia.JunkDropped | app/graphql/uploadMedia.js:154-157 | non-strings, empty strings and short non-URL strings become null without any request, and never survive |
| UploadMedia.Base64Uploaded | app/graphql/uploadMedia.js:165-175 | a long non-URL string is always sent to the staged upload (its length guard never fires from here), and becomes the resourceUrl or, on failure, the placeholder; it is dropped only when the upload succeeds without a non-empty string resourceUrl |
| UploadMedia.UrlsOnly | app/graphql/uploadMedia.js:198-208 | with only URLs, the media mutation listing them in order is the only request |
| UploadMedia.UrlsSendNothing | app/graphql/uploadMedia.js:160-162 | processing http or https URLs issues no request |
| UploadMedia.SurvivingStrings | app/graphql/uploadMedia.js:188 | non-empty strings all survive the filter, in their order |
| JsString.Trim | app/bigmodel.server.js:177 | the result has no whitespace at either end |
| JsString.TrimSlice | app/bigmodel.server.js:177 | the result is a slice of the input, and everything before and after that slice is whitespace |
| JsString.TrimOfTrimmed | app/components/ProductPreviewModal.jsx:145 | a string without whitespace at its ends is its own trim |
| JsString.TrimIdempotent | app/bigmodel.server.js:177 | trimming twice is trimming once |
| JsString.TrimSkipsLeadingWhite | app/components/ProductPreviewModal.jsx:145 | leading whitespace does not change the trimmed result |
| JsString.Split | app/components/ProductPreviewModal.jsx:145 | at least one piece, none holding the separator, and joining the pieces with it gives the input back |
| JsString.SplitJoin | app/components/ProductPreviewModal.jsx:145 | splitting undoes joining for separator-free pieces |
| JsString.NatText | app/graphql/uploadMedia.js:168 | the decimal digits of a number, "0" exactly for zero |
| JsString.NatTextValue | app/graphql/uploadMedia.js:168 | the decimal digits denote the number, and start with 0 only for zero itself |
| JsString.NatTextInjective | app/graphql/uploadMedia.js:203 | different numbers print differently |
| JsValue.Number | app/graphql/uploadMedia.js:143 | a length is a number, truthy exactly when non-zero |
| JsValue.NumberGreaterThanZero | app/graphql/uploadMedia.js:73 | a length compares greater than zero exactly when positive |
| JsValue.Prop | app/graphql/createProduct.js:40 | strict property access throws exactly on null or undefined |
| JsValue.Spread | app/graphql/uploadMedia.js:216-219 | array spread yields an array's elements or a string's characters, and throws on anything else |
| JsValue.JoinStrs | app/components/ProductPreviewModal.jsx:112 | joining an array of strings joins the strings themselves |
| Utf8.Encode | app/graphql/uploadMedia.js:112 | UTF-8 takes one to four bytes per character |
| Utf8.EncodeAppend | app/graphql/uploadMedia.js:111-115 | the bytes of concatenated text are the concatenated bytes |
| Utf8.EncodeAscii | app/graphql/uploadMedia.js:112 | ASCII text encodes to one byte per character, equal to its code |
| Utf8.EncodeCharDecodes | app/graphql/uploadMedia.js:112 | each character's bytes are a lead byte announcing their count, then continuation bytes, carrying its code point in shortest form |
| Utf8.DecodeEncode | app/graphql/uploadMedia.js:111-115 | strict UTF-8 decoding returns the encoded text, so different texts never encode alike |

## Left out

- I/O is not modelled; these calls are oracles:
  - the store's GraphQL endpoint with `response.json()`, and `fetch` to the staged URL, together as `Network`;
  - the chat-completion service, as `ChatReply`;
  - the image host's upload, as `Uploader`;
  - `JSON.parse`, as `JsonParser`;
  - `Buffer.from(…, "base64")`, as `Base64Decoder`.
- Randomness and time are parameters:
  - `Math.random().toString(36).substring(2, 15)` is the boundary nonce of each image;
  - `Date.now()` is a clock reading per image (`Env`).
- Concurrency is not modelled. `Promise.all` over the images is a sequential map in index order, so `sent` lists each image's requests in index order, although the real requests may interleave.
- Console logging is left out, and so is `uploadResponse.text()` after a failed staged POST: its text is only logged.
- The chat prompt, the request body sent to the chat service, and the commented-out mock answer in app/bigmodel.server.js are not part of this model.
- `createVariants` (app/graphql/createProduct.js:105-107) only forwards to `createAdditionalVariants` and has no member of its own.
- The catch-all at app/graphql/uploadMedia.js:181-184 has no counterpart: no step of the per-image callback outside the inner try can throw on the modelled values.
- Cross-image placeholder collisions are possible. `UploadMedia.PlaceholdersDistinct` covers one clock reading only. Two failed uploads read at different times can produce the same placeholder, because `Date.now() + index` can coincide.
- `.length` is read only for arrays and strings. On an object it is the object's own `length` entry; getters and other built-ins are not modelled.
- JsValue.GreaterThanZero: `x > 0` is exact for numbers, booleans, null and undefined only. For a string, array or object operand it is taken as false, whereas JavaScript converts the operand to a number first. This affects odd `userErrors.length` or `variants.length` values in app/graphql/uploadMedia.js:73 and app/graphql/createProduct.js:48.
- JsValue.OwnProps: object spread copies only a plain object's fields. The index keys that spreading a string or an array yields are not modelled. This matters for `...product.variants[0]` when the variants are a string, and also when the first variant is itself a string or an array: `{..."abc", price}` has the keys "0", "1" and "2" as well as `price`.
- Objects are unordered maps here: the key order that `JSON.stringify` would print is not modelled, nor is the stringification of the save payload itself.
- `toString` of an object is `"[object Object]"`; custom `toString` methods are not modelled. Numbers are kept as their printed text, and number arithmetic appears only as natural-number arithmetic on indices and clock readings.
- Strings are sequences of code points, not UTF-16 units. This matters for the 100-character guards and for non-BMP characters in `.length`, `trim` and UTF-8 encoding. Lone surrogates cannot be represented at all, since a Dafny `char` cannot hold a surrogate code point; so `Buffer.from`'s replacement of a lone surrogate by U+FFFD has no counterpart.
- The fence removal `/```json|```/g` is case-sensitive: a ```` ```JSON ```` opener loses only its backticks.
- Content that is not a string makes `content.replace` throw a TypeError (app/bigmodel.server.js:177); there is no dedicated error for an empty answer.

=== FILE: bigmodel.dfy ===
/**
  The AI text step (app/bigmodel.server.js, generateProductWithAI): the
  credential check, then the chat-completion reply, whose content has its
  markdown fences removed and is trimmed before it is parsed as JSON. The
  reply and the JSON parser are oracles here.
*/
module BigModel {
  import opened JsString
  import opened JsValue

  const JsonFence := "```json"
  const Fence := "```"
  const MissingKey := "BIGMODEL_API_KEY is missing"

  /** `s.replace(/```json|```/g, "")`: scanning left to right, at each position
      the first alternative that matches ("```json" before "```") is removed
      and the scan resumes after it; any other character is kept. */
  function StripFences(s: string): (r: string)
    ensures |r| <= |s|
    decreases |s|
  {
    if s == [] then []
    // both alternatives start with a backtick
    else if s[0] != '`' then [s[0]] + StripFences(s[1..])
    else if StartsWith(s, JsonFence) then StripFences(s[7..])
    else if StartsWith(s, Fence) then StripFences(s[3..])
    else [s[0]] + StripFences(s[1..])
  }

  /** The content handed to JSON.parse: `content.replace(...).trim()`. */
  function CleanContent(content: string): (r: string)
    ensures IsTrimmed(r)
    ensures NoFence(r)
  {
    NoFenceRemains(content);
    TrimKeepsNoFence(StripFences(content));
    Trim(StripFences(content))
  }

  /** Three backticks in a row start at position `i`. */
  predicate FenceAt(s: string, i: nat)
    requires i + 2 < |s|
  {
    s[i] == '`' && s[i + 1] == '`' && s[i + 2] == '`'
  }

  /** No three backticks in a row. */
  predicate NoFence(s: string) {
    forall i: nat :: i + 2 < |s| ==> !FenceAt(s, i)
  }

  /** Text without backticks is left alone by the fence removal. */
  lemma {:induction false} StripFencesNoBacktick(s: string)
    requires '`' !in s
    ensures StripFences(s) == s
  {
    if s != [] {
      assert s[0] != '`';
      StripFencesNoBacktick(s[1..]);
      assert [s[0]] + s[1..] == s;
    }
  }

  /** A character other than a backtick is kept and does not affect what
      follows. */
  lemma StripFencesCons(c: char, t: string)
    requires c != '`'
    ensures StripFences([c] + t) == [c] + StripFences(t)
  {
    var s := [c] + t;
    assert s[0] == c && s[1..] == t;
    assert !StartsWith(s, JsonFence) && !StartsWith(s, Fence) by {
      assert JsonFence[0] == '`' && Fence[0] == '`';
    }
  }

  /** A backtick-free prefix is kept as it is and does not affect what follows. */
  lemma {:induction false} StripFencesKeepsPlainPrefix(a: string, b: string)
    requires '`' !in a
    ensures StripFences(a + b) == a + StripFences(b)
  {
    if a == [] {
      assert a + b == b;
    } else {
      assert a + b == [a[0]] + (a[1..] + b);
      StripFencesCons(a[0], a[1..] + b);
      StripFencesKeepsPlainPrefix(a[1..], b);
      assert [a[0]] + a[1..] == a;
    }
  }

  /** A string that does not start with a backtick keeps its first character. */
  lemma StripFencesFirst(s: string)
    requires s != [] && s[0] != '`'
    ensures StripFences(s) != [] && StripFences(s)[0] == s[0]
  {
  }

  /** A character in front of fence-free text makes no fence unless it is a
      backtick followed by two more. */
  lemma NoFenceCons(c: char, u: string)
    requires NoFence(u)
    requires !(c == '`' && |u| >= 2 && u[0] == '`' && u[1] == '`')
    ensures NoFence([c] + u)
  {
    var r := [c] + u;
    forall k: nat | k + 2 < |r|
      ensures !FenceAt(r, k)
    {
      if k > 0 {
        assert !FenceAt(u, k - 1);
        assert r[k] == u[k - 1] && r[k + 1] == u[k] && r[k + 2] == u[k + 1];
      }
    }
  }

  /** The removal never leaves three backticks in a row behind, even where
      removing a fence brings backticks together. */
  lemma {:induction false} NoFenceRemains(s: string)
    ensures NoFence(StripFences(s))
    decreases |s|
  {
    if StartsWith(s, JsonFence) {
      NoFenceRemains(s[7..]);
    } else if StartsWith(s, Fence) {
      NoFenceRemains(s[3..]);
    } else if s != [] {
      var t := s[1..];
      NoFenceRemains(t);
      var u := StripFences(t);
      assert StripFences(s) == [s[0]] + u;
      if s[0] == '`' && |s| >= 2 {
        // s does not start with three backticks, so u does not start with two
        if s[1] != '`' {
          StripFencesFirst(t);
        } else if |s| == 2 {
          assert t == "`";
          assert u == [t[0]] + StripFences(t[1..]);
        } else {
          assert s[2] != '`' by { assert !StartsWith(s, Fence); }
          assert !StartsWith(t, JsonFence) && !StartsWith(t, Fence);
          assert u == [t[0]] + StripFences(t[1..]);
          StripFencesFirst(t[1..]);
        }
      }
      NoFenceCons(s[0], u);
    }
  }

  /** A slice of a fence-free string is fence-free. */
  lemma NoFenceInSlice(s: string, r: string, i: nat)
    requires NoFence(s)
    requires i <= |s| - |r| && r == s[i..i + |r|]
    ensures NoFence(r)
  {
    forall k: nat | k + 2 < |r|
      ensures !FenceAt(r, k)
    {
      assert !FenceAt(s, i + k);
      assert r[k] == s[i + k] && r[k + 1] == s[i + k + 1] && r[k + 2] == s[i + k + 2];
    }
  }

  /** Trimming fence-free text leaves it fence-free. */
  lemma TrimKeepsNoFence(s: string)
    requires NoFence(s)
    ensures NoFence(Trim(s))
  {
    TrimSlice(s);
    NoFenceInSlice(s, Trim(s), SkipWhite(s, 0));
  }

  /** Fence-free text is left alone by the removal. */
  lemma {:induction false} StripFencesFenceFree(s: string)
    requires NoFence(s)
    ensures StripFences(s) == s
  {
    if s != [] {
      assert !StartsWith(s, Fence) by {
        if |s| >= 3 { assert !FenceAt(s, 0); }
      }
      assert !StartsWith(s, JsonFence);
      assert NoFence(s[1..]) by {
        forall k: nat | k + 2 < |s[1..]|
          ensures !FenceAt(s[1..], k)
        {
          assert !FenceAt(s, k + 1);
          assert s[1..][k] == s[k + 1] && s[1..][k + 1] == s[k + 2] && s[1..][k + 2] == s[k + 3];
        }
      }
      StripFencesFenceFree(s[1..]);
      assert [s[0]] + s[1..] == s;
    }
  }

  /** Cleaning is idempotent: cleaned content is already clean. */
  lemma CleanContentIdempotent(content: string)
    ensures CleanContent(CleanContent(content)) == CleanContent(content)
  {
    var c := CleanContent(content);
    StripFencesFenceFree(c);
    TrimOfTrimmed(c);
  }

  /** For text with no backticks, cleaning is plain trimming. */
  lemma CleanNoBacktick(s: string)
    requires '`' !in s
    ensures CleanContent(s) == Trim(s)
  {
    StripFencesNoBacktick(s);
  }

  /** Wrapping backtick-free JSON text in a ```json fence does not change what
      is parsed. */
  lemma CleanFencedJson(s: string)
    requires '`' !in s
    ensures CleanContent(JsonFence + s + Fence) == CleanContent(s)
  {
    var w := JsonFence + s + Fence;
    assert StartsWith(w, JsonFence);
    assert w[7..] == s + Fence;
    StripFencesKeepsPlainPrefix(s, Fence);
    assert StripFences(Fence) == [] by {
      assert StartsWith(Fence, Fence) && !StartsWith(Fence, JsonFence);
      assert Fence[3..] == [];
    }
    assert s + [] == s;
    StripFencesNoBacktick(s);
  }

  /** The HTTP exchange with the chat-completion service, as an oracle. */
  datatype ChatReply =
    | Threw(error: Error)        // fetch or response.json() threw
    | NotOk(text: string)        // a non-2xx answer with this body text
    | Answered(data: Value)      // the decoded JSON body of a 2xx answer

  /** JSON.parse: a value, or `Err(SyntaxError)`. */
  type JsonParser = string -> Result<Value>

  /** `data.choices?.[0]?.message?.content`. */
  function ReplyContent(data: Value): (r: Result<Value>)
    ensures r.Err? <==> Nullish(data)
    ensures r.Err? ==> r.error == TypeError
  {
    var choices :- Prop(data, "choices");
    Ok(Get(Get(Index(choices, 0), "message"), "content"))
  }

  /** generateProductWithAI: the parsed product, or the error it throws. */
  function GenerateProductWithAI(apiKey: Value, reply: ChatReply, parse: JsonParser): (r: Result<Value>)
    ensures !Truthy(apiKey) ==> r == Err(Error(MissingKey))
    ensures Truthy(apiKey) && reply.NotOk? ==> r == Err(Error(reply.text))
    ensures Truthy(apiKey) && reply.Threw? ==> r == Err(reply.error)
    // a reply whose content is a string is parsed after cleaning
    ensures Truthy(apiKey) && reply.Answered? && ReplyContent(reply.data).Ok? && ReplyContent(reply.data).value.Str?
      ==> r == parse(CleanContent(ReplyContent(reply.data).value.s))
    // any other content has no `replace` method
    ensures Truthy(apiKey) && reply.Answered? && ReplyContent(reply.data).Ok? && !ReplyContent(reply.data).value.Str?
      ==> r == Err(TypeError)
    // a null or undefined body has no `choices`
    ensures Truthy(apiKey) && reply.Answered? && ReplyContent(reply.data).Err? ==> r == Err(TypeError)
  {
    if !Truthy(apiKey) then Err(Error(MissingKey))
    else
      match reply
      case Threw(e) => Err(e)
      case NotOk(text) => Err(Error(text))
      case Answered(data) =>
        var content :- ReplyContent(data);
        if !content.Str? then Err(TypeError)
        else parse(CleanContent(content.s))
  }

  /** A missing key fails before the service is asked: the outcome does not
      depend on the reply or the parser. */
  lemma MissingKeyFailsFirst(apiKey: Value, r1: ChatReply, r2: ChatReply, p1: JsonParser, p2: JsonParser)
    requires !Truthy(apiKey)
    ensures GenerateProductWithAI(apiKey, r1, p1) == GenerateProductWithAI(apiKey, r2, p2)
  {
  }

  /** The reply `{choices: [{message: {content: c}}]}`. */
  function ReplyWith(content: string): Value {
    Obj(map["choices" := Arr([Obj(map["message" := Obj(map["content" := Str(content)])])])])
  }

  lemma ReplyContentOf(content: string)
    ensures ReplyContent(ReplyWith(content)) == Ok(Str(content))
  {
    var data := ReplyWith(content);
    var choices := Get(data, "choices");
    assert Index(choices, 0) == Obj(map["message" := Obj(map["content" := Str(content)])]);
  }

  /** A reply wrapped in a ```json fence yields the same product as the bare
      JSON text. */
  lemma FencedReplySameProduct(apiKey: Value, s: string, parse: JsonParser)
    requires '`' !in s
    ensures GenerateProductWithAI(apiKey, Answered(ReplyWith(JsonFence + s + Fence)), parse)
         == GenerateProductWithAI(apiKey, Answered(ReplyWith(s)), parse)
  {
    CleanFencedJson(s);
    ReplyContentOf(JsonFence + s + Fence);
    ReplyContentOf(s);
  }
}

=== FILE: cloudinary.dfy ===
/**
  The image-hosting upload (app/lib/cloudinary.server.js): a falsy image is
  refused, anything else is turned into a data URI before it is handed to the
  hosting service, whose answer is an oracle here.
*/
module Cloudinary {
  import opened JsString
  import opened JsValue

  const DataImagePrefix := "data:image/"
  const PngBase64Prefix := "data:image/png;base64,"

  /** The data URI sent for an image: passed through when it already is one,
      otherwise taken to be bare base64 PNG data. */
  function ToDataUri(image: string): (r: string)
    ensures StartsWith(r, DataImagePrefix)
    ensures StartsWith(image, DataImagePrefix) ==> r == image
    ensures !StartsWith(image, DataImagePrefix) ==> r == PngBase64Prefix + image
  {
    if StartsWith(image, DataImagePrefix) then image else PngBase64Prefix + image
  }

  /** Normalising twice is normalising once. */
  lemma ToDataUriIdempotent(image: string)
    ensures ToDataUri(ToDataUri(image)) == ToDataUri(image)
  {
  }

  /** `cloudinary.uploader.upload(dataUri, ...)`: the result object, or `Err`
      when the upload throws. */
  type Uploader = string -> Result<Value>

  /** uploadImage: the hosted `secure_url` of the image. */
  function UploadImage(image: Value, upload: Uploader): (r: Result<Value>)
    ensures !Truthy(image) ==> r == Err(Error("No image provided"))
    // `startsWith` exists only on strings
    ensures Truthy(image) && !image.Str? ==> r == Err(TypeError)
    ensures Truthy(image) && image.Str? && upload(ToDataUri(image.s)).Ok? ==>
      r == Prop(upload(ToDataUri(image.s)).value, "secure_url")
    ensures Truthy(image) && image.Str? && upload(ToDataUri(image.s)).Err? ==>
      r == upload(ToDataUri(image.s))
  {
    if !Truthy(image) then Err(Error("No image provided"))
    else if !image.Str? then Err(TypeError)
    else
      var result :- upload(ToDataUri(image.s));
      Prop(result, "secure_url")
  }

  /** A falsy image is refused before anything is uploaded: the outcome does
      not depend on the hosting service at all. */
  lemma FalsyImageNotUploaded(image: Value, u1: Uploader, u2: Uploader)
    requires !Truthy(image)
    ensures UploadImage(image, u1) == UploadImage(image, u2) == Err(Error("No image provided"))
  {
  }
}

=== FILE: create_product.dfy ===
/**
  Creating the product in the store (app/graphql/createProduct.js): the
  productCreate input with its defaults, the user-error check, and the
  follow-up productVariantsBulkCreate for the product's own variants.
*/
module CreateProduct {
  import opened JsValue
  import opened ShopifyAdmin

  const DefaultVendor := "AI Generated"
  const DefaultProductType := "AI Product"
  const DefaultPrice := "0.00"
  const DefaultOption := "Default"
  const VariantCreationFailed := "Variant creation failed: "

  /** The `input` of productCreate built from the generated product. */
  function ProductInputOf(product: Value): (r: Result<ProductInput>)
    ensures Nullish(product) <==> r == Err(TypeError)
    ensures r.Ok? ==>
      && r.value.title == Get(product, "title")
      && r.value.descriptionHtml == Get(product, "descriptionHtml")
      && r.value.tags == Get(product, "tags")
      && r.value.status == "ACTIVE"
    // a vendor or product type is kept when truthy, and replaced by the default otherwise
    ensures r.Ok? ==>
      && (Truthy(Get(product, "vendor")) ==> r.value.vendor == Get(product, "vendor"))
      && (!Truthy(Get(product, "vendor")) ==> r.value.vendor == Str(DefaultVendor))
      && (Truthy(Get(product, "productType")) ==> r.value.productType == Get(product, "productType"))
      && (!Truthy(Get(product, "productType")) ==> r.value.productType == Str(DefaultProductType))
  {
    var title :- Prop(product, "title");
    Ok(ProductInput(
      title,
      Get(product, "descriptionHtml"),
      Get(product, "tags"),
      Or(Get(product, "vendor"), Str(DefaultVendor)),
      Or(Get(product, "productType"), Str(DefaultProductType)),
      "ACTIVE"))
  }

  /** The input sent always has a truthy vendor and product type. */
  lemma ProductInputDefaultsTruthy(product: Value)
    requires !Nullish(product)
    ensures Truthy(ProductInputOf(product).value.vendor)
    ensures Truthy(ProductInputOf(product).value.productType)
  {
  }

  /** `v.price?.toString() || "0.00"`. */
  function PriceText(price: Value): (r: string)
    ensures r != ""
    ensures Nullish(price) || ToStr(price) == "" ==> r == DefaultPrice
    ensures !Nullish(price) && ToStr(price) != "" ==> r == ToStr(price)
  {
    if Nullish(price) || ToStr(price) == "" then DefaultPrice else ToStr(price)
  }

  /** One entry of the `variants.map` callback. */
  function VariantInputOf(v: Value): (r: Result<VariantInput>)
    ensures Nullish(v) <==> r == Err(TypeError)
    ensures r.Ok? ==> r.value.price == PriceText(Get(v, "price"))
    // null when falsy, otherwise its string form
    ensures r.Ok? && !Truthy(Get(v, "compareAtPrice")) ==> r.value.compareAtPrice == Null
    ensures r.Ok? && Truthy(Get(v, "compareAtPrice")) ==> r.value.compareAtPrice == Str(ToStr(Get(v, "compareAtPrice")))
    // exactly one option value, named "Title"
    ensures r.Ok? ==> |r.value.optionValues| == 1 && r.value.optionValues[0].optionName == "Title"
    ensures r.Ok? && Truthy(Get(v, "option1")) ==> r.value.optionValues[0].name == Get(v, "option1")
    ensures r.Ok? && !Truthy(Get(v, "option1")) ==> r.value.optionValues[0].name == Str(DefaultOption)
  {
    var price :- Prop(v, "price");
    var compareAtPrice := Get(v, "compareAtPrice");
    Ok(VariantInput(
      PriceText(price),
      if Truthy(compareAtPrice) then Str(ToStr(compareAtPrice)) else Null,
      [OptionValueInput("Title", Or(Get(v, "option1"), Str(DefaultOption)))]))
  }

  /** `variants.map(...)` on the elements of an array, in order; the first
      null or undefined variant throws. */
  function VariantInputsOf(variants: seq<Value>): (r: Result<seq<VariantInput>>)
    ensures r.Ok? <==> forall i :: 0 <= i < |variants| ==> !Nullish(variants[i])
    ensures r.Err? ==> r.error == TypeError
    ensures r.Ok? ==> |r.value| == |variants|
    ensures r.Ok? ==> forall i :: 0 <= i < |variants| ==> Ok(r.value[i]) == VariantInputOf(variants[i])
  {
    if variants == [] then Ok([])
    else
      var first :- VariantInputOf(variants[0]);
      var rest :- VariantInputsOf(variants[1..]);
      assert forall i :: 1 <= i < |variants| ==> variants[i] == variants[1..][i - 1];
      Ok([first] + rest)
  }

  /** createAdditionalVariants: `null` for a missing or empty list, otherwise
      the created variants, or the error thrown; and the requests issued. */
  function CreateAdditionalVariants(net: Network, productId: Value, variants: Value): (r: Run<Value>)
    ensures !Truthy(variants) || Get(variants, "length") == Number(0) ==> r == Run(Ok(Null), [])
    ensures r.sent != [] ==>
      && variants.Arr? && VariantInputsOf(variants.elems).Ok?
      && r.sent == [ProductVariantsBulkCreate(productId, VariantInputsOf(variants.elems).value)]
    // once sent, the mutation's reply decides the result
    ensures r.sent != [] && net(r.sent[0]).Ok? ==> r.result == VariantsReply(net(r.sent[0]).value)
    ensures r.sent != [] && net(r.sent[0]).Err? ==> r.result == Err(net(r.sent[0]).error)
    // a non-empty list that is not an array of non-null variants throws before any request
    ensures r.sent == [] && r.result != Ok(Null) ==> r.result == Err(TypeError)
    // `variants.map` on a non-array, or `v.price` on a null variant, throws
    ensures (Truthy(variants) && Get(variants, "length") != Number(0)
             && (!variants.Arr? || VariantInputsOf(variants.elems).Err?)) ==> r == Run(Err(TypeError), [])
  {
    if !Truthy(variants) || Get(variants, "length") == Number(0) then Run(Ok(Null), [])
    else if !variants.Arr? then
      // `variants.map` is not a function
      Run(Err(TypeError), [])
    else
      match VariantInputsOf(variants.elems)
      case Err(e) => Run(Err(e), [])
      case Ok(inputs) =>
        var request := ProductVariantsBulkCreate(productId, inputs);
        match net(request)
        case Err(e) => Run(Err(e), [request])
        case Ok(data) => Run(VariantsReply(data), [request])
  }

  /** The reply of productVariantsBulkCreate: the created variants, or the
      error thrown for user errors. */
  function VariantsReply(data: Value): (r: Result<Value>)
    // no user errors (missing, or of falsy length such as []): the variants, or []
    ensures !Truthy(Get(Or(Get(BulkPayload(data), "userErrors"), Arr([])), "length")) ==>
      r == Ok(Or(Get(BulkPayload(data), "productVariants"), Arr([])))
    // user errors of truthy length fail with the prefixed, joined messages
    ensures var userErrors := Or(Get(BulkPayload(data), "userErrors"), Arr([]));
      Truthy(Get(userErrors, "length")) ==>
        && (JoinedMessages(userErrors).Ok? ==> r == Err(Error(VariantCreationFailed + JoinedMessages(userErrors).value)))
        && (JoinedMessages(userErrors).Err? ==> r == Err(TypeError))
  {
    var payload := BulkPayload(data);
    var userErrors := Or(Get(payload, "userErrors"), Arr([]));
    if Truthy(Get(userErrors, "length")) then
      var message :- JoinedMessages(userErrors);
      Err(Error(VariantCreationFailed + message))
    else
      Ok(Or(Get(payload, "productVariants"), Arr([])))
  }

  /** `data?.data?.productVariantsBulkCreate`. */
  function BulkPayload(data: Value): Value {
    Get(Get(data, "data"), "productVariantsBulkCreate")
  }

  /** Variant user errors fail with the prefix and the messages joined by ", ". */
  lemma VariantUserErrors(data: Value, userErrors: seq<Value>)
    requires Get(BulkPayload(data), "userErrors") == Arr(userErrors) && userErrors != []
    requires forall i :: 0 <= i < |userErrors| ==> !Nullish(userErrors[i])
    ensures VariantsReply(data)
         == Err(Error(VariantCreationFailed + JoinValues(MessagesOfElems(userErrors).value, ", ")))
  {
  }

  /** With an array of variants, the one mutation lists them all, in order. */
  lemma VariantsMappedInOrder(net: Network, productId: Value, variants: seq<Value>)
    requires variants != []
    requires forall i :: 0 <= i < |variants| ==> !Nullish(variants[i])
    ensures var r := CreateAdditionalVariants(net, productId, Arr(variants));
      && |r.sent| == 1 && r.sent[0].ProductVariantsBulkCreate?
      && r.sent[0].productId == productId
      && |r.sent[0].variants| == |variants|
      && forall i :: 0 <= i < |variants| ==> Ok(r.sent[0].variants[i]) == VariantInputOf(variants[i])
  {
    NumberInjective(|variants|, 0);
  }

  /** `data.data.productCreate`, read strictly. */
  function CreatePayload(data: Value): (r: Result<Value>)
    ensures r.Ok? <==> !Nullish(data) && !Nullish(Get(data, "data"))
    ensures r.Err? ==> r.error == TypeError
    ensures r.Ok? ==> r.value == Get(Get(data, "data"), "productCreate")
  {
    var d :- Prop(data, "data");
    Prop(d, "productCreate")
  }

  /** createProduct: the created product, or the error thrown; and the
      requests issued. */
  function CreateProduct(net: Network, product: Value): (r: Run<Value>)
    ensures Nullish(product) ==> r == Run(Err(TypeError), [])
    ensures !Nullish(product) ==> r.sent != [] && r.sent[0] == ProductCreate(ProductInputOf(product).value)
    ensures |r.sent| <= 2
    ensures |r.sent| == 2 ==> r.sent[1].ProductVariantsBulkCreate?
    // success returns `data.data.productCreate.product` of the first reply
    ensures r.result.Ok? ==>
      && |r.sent| >= 1 && net(r.sent[0]).Ok? && CreatePayload(net(r.sent[0]).value).Ok?
      && r.result.value == Get(CreatePayload(net(r.sent[0]).value).value, "product")
    // a failed variant mutation fails the whole call with its error
    ensures |r.sent| == 2 && net(r.sent[1]).Err? ==> r.result == Err(net(r.sent[1]).error)
    ensures |r.sent| == 2 && net(r.sent[1]).Ok? && VariantsReply(net(r.sent[1]).value).Err? ==>
      r.result == Err(VariantsReply(net(r.sent[1]).value).error)
    // the outcome, case by case, once the product input is built
    ensures !Nullish(product) ==>
      var request := ProductCreate(ProductInputOf(product).value);
      var created := CreatedProduct(net(request));
      var hasVariants := GreaterThanZero(Get(Get(product, "variants"), "length"));
      // a failed request or reply is the result, and nothing follows
      && (created.Err? ==> r == Run(created, [request]))
      // without variants the created product is returned
      && (created.Ok? && !hasVariants ==> r == Run(created, [request]))
      // `createdProduct.id` throws on a null product
      && (created.Ok? && hasVariants && Nullish(created.value) ==> r == Run(Err(TypeError), [request]))
      // otherwise the variants follow; their failure is the result, else the created product
      && (created.Ok? && hasVariants && !Nullish(created.value) ==>
            var more := CreateAdditionalVariants(net, Get(created.value, "id"), Get(product, "variants"));
            && r.sent == [request] + more.sent
            && (more.result.Err? ==> r.result == Err(more.result.error))
            && (more.result.Ok? ==> r.result == created))
  {
    match ProductInputOf(product)
    case Err(e) => Run(Err(e), [])
    case Ok(input) =>
      var request := ProductCreate(input);
      match CreatedProduct(net(request))
      case Err(e) => Run(Err(e), [request])
      case Ok(createdProduct) =>
        if GreaterThanZero(Get(Get(product, "variants"), "length")) then
          match Prop(createdProduct, "id")
          case Err(e) => Run(Err(e), [request])
          case Ok(id) =>
            var more := CreateAdditionalVariants(net, id, Get(product, "variants"));
            Run(if more.result.Err? then Err(more.result.error) else Ok(createdProduct), [request] + more.sent)
        else
          Run(Ok(createdProduct), [request])
  }

  /** The productCreate reply: the created product, or the error thrown for
      user errors (or by reading a missing part of the reply). */
  function CreatedProduct(reply: Result<Value>): (r: Result<Value>)
    ensures reply.Err? ==> r == Err(reply.error)
    ensures reply.Ok? && CreatePayload(reply.value).Err? ==> r == Err(TypeError)
    ensures r.Ok? ==>
      && reply.Ok? && CreatePayload(reply.value).Ok?
      && !Nullish(Get(CreatePayload(reply.value).value, "userErrors"))
      && !Truthy(Get(Get(CreatePayload(reply.value).value, "userErrors"), "length"))
      && r.value == Get(CreatePayload(reply.value).value, "product")
    ensures reply.Ok? && CreatePayload(reply.value).Ok? ==>
      var payload := CreatePayload(reply.value).value;
      var userErrors := Get(payload, "userErrors");
      // `productCreate.userErrors.length` throws on a missing payload or list
      && (Nullish(payload) || Nullish(userErrors) ==> r == Err(TypeError))
      // no user errors: the created product
      && (!Nullish(payload) && !Nullish(userErrors) && !Truthy(Get(userErrors, "length")) ==>
            r == Ok(Get(payload, "product")))
      // user errors: their messages joined by ", "
      && (!Nullish(payload) && !Nullish(userErrors) && Truthy(Get(userErrors, "length")) ==>
            && (JoinedMessages(userErrors).Ok? ==> r == Err(Error(JoinedMessages(userErrors).value)))
            && (JoinedMessages(userErrors).Err? ==> r == Err(TypeError)))
  {
    var data :- reply;
    var payload :- CreatePayload(data);
    var userErrors :- Prop(payload, "userErrors");
    var length :- Prop(userErrors, "length");
    if Truthy(length) then
      var message :- JoinedMessages(userErrors);
      Err(Error(message))
    else
      Ok(Get(payload, "product"))
  }

  /** A productCreate reply body with the given user errors and product. */
  function CreateReply(userErrors: Value, product: Value): Value {
    Obj(map["data" := Obj(map["productCreate" := Obj(map["userErrors" := userErrors, "product" := product])])])
  }

  /** A productVariantsBulkCreate reply body with the given user errors and
      created variants. */
  function BulkReply(userErrors: Value, productVariants: Value): Value {
    Obj(map["data" := Obj(map["productVariantsBulkCreate" :=
      Obj(map["userErrors" := userErrors, "productVariants" := productVariants])])])
  }

  /** A productCreate reply without user errors yields its product. */
  lemma CleanCreateReply(created: Value)
    ensures CreatedProduct(Ok(CreateReply(Arr([]), created))) == Ok(created)
  {
    var reply := CreateReply(Arr([]), created);
    assert CreatePayload(reply) == Ok(Obj(map["userErrors" := Arr([]), "product" := created]));
  }

  /** A variant reply without user errors yields its variants, or []. */
  lemma CleanBulkReply(productVariants: Value)
    ensures VariantsReply(BulkReply(Arr([]), productVariants)) == Ok(Or(productVariants, Arr([])))
  {
    var bulk := BulkReply(Arr([]), productVariants);
    assert BulkPayload(bulk) == Obj(map["userErrors" := Arr([]), "productVariants" := productVariants]);
  }

  /** A clean productCreate reply for a product without variants: the created
      product is returned after the one request. */
  lemma CreatedWithoutVariants(net: Network, product: Value, created: Value)
    requires !Nullish(product) && !GreaterThanZero(Get(Get(product, "variants"), "length"))
    requires net(ProductCreate(ProductInputOf(product).value)) == Ok(CreateReply(Arr([]), created))
    ensures CreateProduct(net, product) == Run(Ok(created), [ProductCreate(ProductInputOf(product).value)])
  {
    CleanCreateReply(created);
  }

  /** Clean replies to both mutations for a product with variants: the created
      product is returned (VariantsFollowCreation gives the two requests). */
  lemma CreatedWithVariants(net: Network, product: Value, variants: seq<Value>, created: Value, productVariants: Value)
    requires !Nullish(product) && Get(product, "variants") == Arr(variants) && variants != []
    requires forall i :: 0 <= i < |variants| ==> !Nullish(variants[i])
    requires !Nullish(created)
    requires net(ProductCreate(ProductInputOf(product).value)) == Ok(CreateReply(Arr([]), created))
    requires VariantInputsOf(variants).Ok?
    requires net(ProductVariantsBulkCreate(Get(created, "id"), VariantInputsOf(variants).value))
          == Ok(BulkReply(Arr([]), productVariants))
    ensures CreateProduct(net, product).result == Ok(created)
  {
    var request := ProductCreate(ProductInputOf(product).value);
    var id := Get(created, "id");
    CleanCreateReply(created);
    NumberGreaterThanZero(|variants|);
    CleanVariantsRun(net, id, variants, productVariants);
    VariantsSent(net, id, variants);
  }

  /** A clean reply to the variant mutation gives the variants, or []. */
  lemma CleanVariantsRun(net: Network, productId: Value, variants: seq<Value>, productVariants: Value)
    requires variants != []
    requires forall i :: 0 <= i < |variants| ==> !Nullish(variants[i])
    requires VariantInputsOf(variants).Ok?
    requires net(ProductVariantsBulkCreate(productId, VariantInputsOf(variants).value))
          == Ok(BulkReply(Arr([]), productVariants))
    ensures CreateAdditionalVariants(net, productId, Arr(variants)).result == Ok(Or(productVariants, Arr([])))
  {
    var request := ProductVariantsBulkCreate(productId, VariantInputsOf(variants).value);
    VariantsSent(net, productId, variants);
    ReplyDecides(net, productId, Arr(variants), request, BulkReply(Arr([]), productVariants));
    CleanBulkReply(productVariants);
  }

  /** Once the one mutation is sent, its reply decides the result. */
  lemma ReplyDecides(net: Network, productId: Value, variants: Value, request: Request, data: Value)
    requires CreateAdditionalVariants(net, productId, variants).sent == [request]
    requires net(request) == Ok(data)
    ensures CreateAdditionalVariants(net, productId, variants).result == VariantsReply(data)
  {
    assert CreateAdditionalVariants(net, productId, variants).sent[0] == request;
  }

  /** User errors of productCreate fail with their messages joined by ", ",
      and the variant mutation is never attempted. */
  lemma ProductUserErrorsStop(net: Network, product: Value, userErrors: seq<Value>)
    requires !Nullish(product)
    requires var reply := net(ProductCreate(ProductInputOf(product).value));
      && reply.Ok? && CreatePayload(reply.value).Ok?
      && Get(CreatePayload(reply.value).value, "userErrors") == Arr(userErrors)
    requires userErrors != []
    requires forall i :: 0 <= i < |userErrors| ==> !Nullish(userErrors[i])
    ensures CreateProduct(net, product)
         == Run(Err(Error(JoinValues(MessagesOfElems(userErrors).value, ", "))),
                [ProductCreate(ProductInputOf(product).value)])
  {
    var request := ProductCreate(ProductInputOf(product).value);
    CreatedUserErrors(net(request), userErrors);
  }

  /** A created product whose variants hold a null entry is not reported as
      created: reading that variant's price throws. */
  lemma NullVariantFails(net: Network, product: Value, variants: seq<Value>, k: nat)
    requires !Nullish(product)
    requires Get(product, "variants") == Arr(variants)
    requires k < |variants| && Nullish(variants[k])
    requires var created := CreatedProduct(net(ProductCreate(ProductInputOf(product).value)));
      created.Ok? && !Nullish(created.value)
    ensures CreateProduct(net, product).result == Err(TypeError)
  {
    NumberGreaterThanZero(|variants|);
    var created := CreatedProduct(net(ProductCreate(ProductInputOf(product).value)));
    var more := CreateAdditionalVariants(net, Get(created.value, "id"), Arr(variants));
    NumberInjective(|variants|, 0);
    assert more == Run(Err(TypeError), []);
  }

  /** A productCreate reply with user errors fails with their joined messages. */
  lemma CreatedUserErrors(reply: Result<Value>, userErrors: seq<Value>)
    requires reply.Ok? && CreatePayload(reply.value).Ok?
    requires Get(CreatePayload(reply.value).value, "userErrors") == Arr(userErrors)
    requires userErrors != []
    requires forall i :: 0 <= i < |userErrors| ==> !Nullish(userErrors[i])
    ensures CreatedProduct(reply) == Err(Error(JoinValues(MessagesOfElems(userErrors).value, ", ")))
  {
    var payload := CreatePayload(reply.value).value;
    assert Prop(payload, "userErrors") == Ok(Arr(userErrors));
    assert Truthy(Get(Arr(userErrors), "length"));
  }

  /** The variant mutation is sent only when `product.variants` has a
      positive length; an array of variants is sent exactly when it is
      non-empty and the product was created. */
  lemma VariantsOnlyWhenPresent(net: Network, product: Value)
    requires !Nullish(product)
    ensures |CreateProduct(net, product).sent| == 2 ==> GreaterThanZero(Get(Get(product, "variants"), "length"))
    ensures Get(product, "variants") == Arr([]) ==> |CreateProduct(net, product).sent| == 1
  {
    NumberGreaterThanZero(0);
  }

  /** A product with a non-empty array of non-null variants, once created
      with an id, is followed by exactly one variant mutation for that id
      listing the variants in order. */
  lemma VariantsFollowCreation(net: Network, product: Value, variants: seq<Value>)
    requires !Nullish(product) && Get(product, "variants") == Arr(variants) && variants != []
    requires forall i :: 0 <= i < |variants| ==> !Nullish(variants[i])
    requires var created := CreatedProduct(net(ProductCreate(ProductInputOf(product).value)));
      created.Ok? && !Nullish(created.value)
    ensures var created := CreatedProduct(net(ProductCreate(ProductInputOf(product).value))).value;
      var r := CreateProduct(net, product);
      && |r.sent| == 2
      && r.sent[1] == ProductVariantsBulkCreate(Get(created, "id"), VariantInputsOf(variants).value)
  {
    var id := Get(CreatedProduct(net(ProductCreate(ProductInputOf(product).value))).value, "id");
    CreationThenVariants(net, product, variants, id);
    VariantsSent(net, id, variants);
  }

  /** Once the product is created with an id, a non-empty variant list makes
      the variant request follow the creation request. */
  lemma CreationThenVariants(net: Network, product: Value, variants: seq<Value>, id: Value)
    requires !Nullish(product) && Get(product, "variants") == Arr(variants) && variants != []
    requires var created := CreatedProduct(net(ProductCreate(ProductInputOf(product).value)));
      created.Ok? && !Nullish(created.value) && Get(created.value, "id") == id
    ensures CreateProduct(net, product).sent
         == [ProductCreate(ProductInputOf(product).value)] + CreateAdditionalVariants(net, id, Arr(variants)).sent
  {
    NumberGreaterThanZero(|variants|);
    var created := CreatedProduct(net(ProductCreate(ProductInputOf(product).value))).value;
    assert Prop(created, "id") == Ok(id);
  }

  /** Non-empty variants, none null, are sent in one mutation. */
  lemma VariantsSent(net: Network, productId: Value, variants: seq<Value>)
    requires variants != []
    requires forall i :: 0 <= i < |variants| ==> !Nullish(variants[i])
    ensures VariantInputsOf(variants).Ok?
    ensures CreateAdditionalVariants(net, productId, Arr(variants)).sent
         == [ProductVariantsBulkCreate(productId, VariantInputsOf(variants).value)]
  {
    VariantsMappedInOrder(net, productId, variants);
  }
}

=== FILE: js_string.dfy ===
/**
  The string operations of the JavaScript runtime that the modelled code relies
  on: `trim`, `startsWith`, `split` on a one-character separator, joining a list
  of strings, and the decimal rendering of a non-negative integer (what a
  template literal prints for such a number).

  Dafny's `char` is a Unicode scalar value, so a string here is a sequence of
  code points; JavaScript's UTF-16 code units only matter for `length`, which
  the modelled code compares against 100 for every string that is not a URL.
  The model counts code points there, which differs from `length` only for
  text with characters beyond U+FFFF.
*/
module JsString {

  /** ECMAScript WhiteSpace and LineTerminator code points: exactly what
      String.prototype.trim removes from both ends. */
  const WhiteSpace: set<char> := {
    '\t', '\n', '\U{000B}', '\U{000C}', '\r', ' ', '\U{00A0}', '\U{1680}',
    '\U{2000}', '\U{2001}', '\U{2002}', '\U{2003}', '\U{2004}', '\U{2005}',
    '\U{2006}', '\U{2007}', '\U{2008}', '\U{2009}', '\U{200A}',
    '\U{2028}', '\U{2029}', '\U{202F}', '\U{205F}', '\U{3000}', '\U{FEFF}'
  }

  predicate IsWhite(c: char) {
    c in WhiteSpace
  }

  /** `s` has no white space at either end (what `trim` produces). */
  predicate IsTrimmed(s: string) {
    s == [] || (!IsWhite(s[0]) && !IsWhite(s[|s| - 1]))
  }

  /** The first position at or after `i` that is not white space (or `|s|`). */
  function SkipWhite(s: string, i: nat): (n: nat)
    requires i <= |s|
    ensures i <= n <= |s|
    ensures forall k :: i <= k < n ==> IsWhite(s[k])
    ensures n < |s| ==> !IsWhite(s[n])
    decreases |s| - i
  {
    if i < |s| && IsWhite(s[i]) then SkipWhite(s, i + 1) else i
  }

  /** The end of `s[lo..j]` once its trailing white space is dropped. */
  function SkipWhiteBack(s: string, lo: nat, j: nat): (n: nat)
    requires lo <= j <= |s|
    ensures lo <= n <= j
    ensures forall k :: n <= k < j ==> IsWhite(s[k])
    ensures n > lo ==> !IsWhite(s[n - 1])
    decreases j
  {
    if lo < j && IsWhite(s[j - 1]) then SkipWhiteBack(s, lo, j - 1) else j
  }

  /** String.prototype.trim: removes the white space at both ends. */
  function Trim(s: string): (r: string)
    ensures IsTrimmed(r)
  {
    var i := SkipWhite(s, 0);
    s[i..SkipWhiteBack(s, i, |s|)]
  }

  /** What `trim` removes is white space and nothing else: the result is the
      slice of `s` after its leading white space, and everything after that
      slice is white space too. */
  lemma TrimSlice(s: string)
    ensures var i := SkipWhite(s, 0); var r := Trim(s);
      && i + |r| <= |s| && r == s[i..i + |r|]
      && (forall k :: 0 <= k < i ==> IsWhite(s[k]))
      && (forall k :: i + |r| <= k < |s| ==> IsWhite(s[k]))
  {
    var i := SkipWhite(s, 0);
    var j := SkipWhiteBack(s, i, |s|);
    assert |Trim(s)| == j - i;
  }

  /** The first non-white position is determined by the string. */
  lemma SkipWhiteUnique(s: string, i: nat, n: nat)
    requires i <= n <= |s|
    requires forall k :: i <= k < n ==> IsWhite(s[k])
    requires n < |s| ==> !IsWhite(s[n])
    ensures SkipWhite(s, i) == n
  {
  }

  /** The end of the trimmed slice is determined by the string. */
  lemma SkipWhiteBackUnique(s: string, lo: nat, j: nat, n: nat)
    requires lo <= n <= j <= |s|
    requires forall k :: n <= k < j ==> IsWhite(s[k])
    requires n > lo ==> !IsWhite(s[n - 1])
    ensures SkipWhiteBack(s, lo, j) == n
  {
  }

  /** A string without white space at its ends is left as it is. */
  lemma TrimOfTrimmed(s: string)
    requires IsTrimmed(s)
    ensures Trim(s) == s
  {
    SkipWhiteUnique(s, 0, 0);
    SkipWhiteBackUnique(s, 0, |s|, |s|);
  }

  /** Trimming is idempotent. */
  lemma TrimIdempotent(s: string)
    ensures Trim(Trim(s)) == Trim(s)
  {
    TrimOfTrimmed(Trim(s));
  }

  /** Leading white space does not change the trimmed result. */
  lemma TrimSkipsLeadingWhite(w: string, s: string)
    requires forall i :: 0 <= i < |w| ==> IsWhite(w[i])
    ensures Trim(w + s) == Trim(s)
  {
    var t := w + s;
    assert t[|w|..] == s;
    assert forall k :: 0 <= k < |w| ==> t[k] == w[k];
    TrimPastWhite(t, |w|, s);
  }

  /** The trim of a string whose first `off` code points are white space is
      the trim of the rest. */
  lemma TrimPastWhite(t: string, off: nat, s: string)
    requires off <= |t| && t[off..] == s
    requires forall k :: 0 <= k < off ==> IsWhite(t[k])
    ensures Trim(t) == Trim(s)
  {
    var i := SkipWhite(s, 0);
    var j := SkipWhiteBack(s, i, |s|);
    SkipWhiteShift(t, off, s);
    SkipWhiteBackShift(t, off, s, i);
    SliceOfSuffix(t, off, i, j);
  }

  /** Past white space of length `off`, the first non-white position is
      shifted by `off`. */
  lemma SkipWhiteShift(t: string, off: nat, s: string)
    requires off <= |t| && t[off..] == s
    requires forall k :: 0 <= k < off ==> IsWhite(t[k])
    ensures SkipWhite(t, 0) == off + SkipWhite(s, 0)
  {
    var i := SkipWhite(s, 0);
    forall k | off <= k < off + i
      ensures IsWhite(t[k])
    {
      assert t[k] == s[k - off];
    }
    if off + i < |t| {
      assert t[off + i] == s[i];
    }
    SkipWhiteUnique(t, 0, off + i);
  }

  /** The end of the trimmed slice, shifted by `off`. */
  lemma SkipWhiteBackShift(t: string, off: nat, s: string, lo: nat)
    requires off <= |t| && t[off..] == s && lo <= |s|
    ensures SkipWhiteBack(t, off + lo, |t|) == off + SkipWhiteBack(s, lo, |s|)
  {
    var j := SkipWhiteBack(s, lo, |s|);
    forall k | off + j <= k < |t|
      ensures IsWhite(t[k])
    {
      assert t[k] == s[k - off];
    }
    if j > lo {
      assert t[off + j - 1] == s[j - 1];
    }
    SkipWhiteBackUnique(t, off + lo, |t|, off + j);
  }

  lemma SliceOfSuffix(t: string, off: nat, i: nat, j: nat)
    requires off + i <= off + j <= |t|
    ensures t[off + i..off + j] == t[off..][i..j]
  {
  }

  /** String.prototype.startsWith. */
  predicate StartsWith(s: string, prefix: string) {
    |prefix| <= |s| && s[..|prefix|] == prefix
  }

  /** Array.prototype.join on a list of strings. */
  function Join(parts: seq<string>, sep: string): string {
    if parts == [] then ""
    else if |parts| == 1 then parts[0]
    else parts[0] + sep + Join(parts[1..], sep)
  }

  /** The lines `ls`, each followed by `eol`. */
  function Lines(ls: seq<string>, eol: string): string {
    if ls == [] then "" else ls[0] + eol + Lines(ls[1..], eol)
  }

  /** Joining non-empty lines and ending the last one too gives the lines each
      followed by the separator. */
  lemma {:induction false} JoinThenEnd(ls: seq<string>, sep: string)
    requires ls != []
    ensures Join(ls, sep) + sep == Lines(ls, sep)
  {
    if |ls| == 1 {
      assert ls[1..] == [];
    } else {
      JoinThenEnd(ls[1..], sep);
      assert Join(ls, sep) + sep == ls[0] + sep + (Join(ls[1..], sep) + sep);
    }
  }

  /** Lines start with their first line and its end. */
  lemma LinesStart(ls: seq<string>, eol: string)
    requires ls != []
    ensures StartsWith(Lines(ls, eol), ls[0] + eol)
  {
    var d := ls[0] + eol;
    assert Lines(ls, eol) == d + Lines(ls[1..], eol);
    assert (d + Lines(ls[1..], eol))[..|d|] == d;
  }

  /** The lines of a concatenation are the lines of each half. */
  lemma {:induction false} LinesAppend(a: seq<string>, b: seq<string>, eol: string)
    ensures Lines(a + b, eol) == Lines(a, eol) + Lines(b, eol)
  {
    if a == [] {
      assert a + b == b;
    } else {
      assert (a + b)[0] == a[0] && (a + b)[1..] == a[1..] + b;
      LinesAppend(a[1..], b, eol);
    }
  }

  /** String.prototype.split with a one-character separator: the pieces between
      the separators, so always at least one (possibly empty) piece, none of
      which contains the separator, and joining them back gives `s`. */
  function Split(s: string, sep: char): (r: seq<string>)
    ensures |r| >= 1
    ensures forall i :: 0 <= i < |r| ==> sep !in r[i]
    ensures Join(r, [sep]) == s
  {
    if s == [] then [""]
    else
      var rest := Split(s[1..], sep);
      if s[0] == sep then
        [""] + rest
      else
        [[s[0]] + rest[0]] + rest[1..]
  }

  /** A piece free of the separator, followed by the separator, splits off as
      one piece. */
  lemma {:induction false} SplitAfterPiece(a: string, sep: char, b: string)
    requires sep !in a
    ensures Split(a + [sep] + b, sep) == [a] + Split(b, sep)
  {
    if a == [] {
      assert a + [sep] + b == [sep] + b;
      assert ([sep] + b)[1..] == b;
    } else {
      assert (a + [sep] + b)[1..] == a[1..] + [sep] + b;
      SplitAfterPiece(a[1..], sep, b);
      assert [a[0]] + a[1..] == a;
    }
  }

  /** A string free of the separator splits into itself alone. */
  lemma {:induction false} SplitNoSeparator(a: string, sep: char)
    requires sep !in a
    ensures Split(a, sep) == [a]
  {
    if a != [] {
      SplitNoSeparator(a[1..], sep);
      assert [a[0]] + a[1..] == a;
    }
  }

  /** Splitting undoes joining, for pieces that do not contain the separator. */
  lemma {:induction false} SplitJoin(parts: seq<string>, sep: char)
    requires |parts| >= 1
    requires forall i :: 0 <= i < |parts| ==> sep !in parts[i]
    ensures Split(Join(parts, [sep]), sep) == parts
  {
    if |parts| == 1 {
      SplitNoSeparator(parts[0], sep);
    } else {
      SplitJoin(parts[1..], sep);
      SplitAfterPiece(parts[0], sep, Join(parts[1..], [sep]));
      assert [parts[0]] + parts[1..] == parts;
    }
  }

  /** The decimal digit for `d`. */
  function Digit(d: nat): (c: char)
    requires d < 10
    ensures '0' <= c <= '9'
    ensures (c == '0') == (d == 0)
    ensures c as int - '0' as int == d
  {
    "0123456789"[d]
  }

  /** The number a string of decimal digits denotes, most significant first. */
  function DigitsValue(s: string): int {
    if s == [] then 0 else DigitsValue(s[..|s| - 1]) * 10 + (s[|s| - 1] as int - '0' as int)
  }

  /** The decimal text of a non-negative integer, as `String(n)` prints it. */
  function NatText(n: nat): (r: string)
    ensures r != [] && (forall i :: 0 <= i < |r| ==> '0' <= r[i] <= '9')
    ensures (|r| == 1) == (n < 10)
    ensures (r == "0") == (n == 0)
  {
    if n < 10 then [Digit(n)] else NatText(n / 10) + [Digit(n % 10)]
  }

  /** The text denotes n, and has a leading zero only when it is "0". */
  lemma {:induction false} NatTextValue(n: nat)
    ensures DigitsValue(NatText(n)) == n
    ensures (NatText(n)[0] == '0') == (n == 0)
  {
    var r := NatText(n);
    if n < 10 {
      assert r[..|r| - 1] == [];
    } else {
      NatTextValue(n / 10);
      assert r[..|r| - 1] == NatText(n / 10);
      assert r[0] == NatText(n / 10)[0];
    }
  }

  lemma DigitInjective(a: nat, b: nat)
    requires a < 10 && b < 10 && Digit(a) == Digit(b)
    ensures a == b
  {
  }

  /** Different numbers print differently. */
  lemma {:induction false} NatTextInjective(a: nat, b: nat)
    requires NatText(a) == NatText(b)
    ensures a == b
  {
    if a < 10 && b < 10 {
      DigitInjective(a, b);
    } else if a >= 10 && b >= 10 {
      var ta, tb := NatText(a), NatText(b);
      assert ta[|ta| - 1] == Digit(a % 10) && tb[|tb| - 1] == Digit(b % 10);
      DigitInjective(a % 10, b % 10);
      assert ta[..|ta| - 1] == NatText(a / 10);
      assert tb[..|tb| - 1] == NatText(b / 10);
      NatTextInjective(a / 10, b / 10);
    }
  }
}

=== FILE: js_value.dfy ===
/**
  JavaScript values as the modelled code sees them (parsed JSON, GraphQL
  replies, form state), with the runtime rules the code leans on: truthiness,
  `||`, property reads with and without optional chaining, string conversion,
  `Array.prototype.join`, array and object spread. A thrown exception is an
  `Err` result.
*/
module JsValue {
  import opened JsString

  /** The text `Number.prototype.toString` gives for a number ("29.99",
      "0", "NaN", "-1e-7", ...); never empty. */
  type NumText = s: string | s != [] witness "0"

  /** A JavaScript value. A number is kept as its canonical decimal text, which
      is all the modelled code ever observes of it besides its sign. */
  datatype Value =
    | Undefined
    | Null
    | Bool(b: bool)
    | Num(text: NumText)
    | Str(s: string)
    | Arr(elems: seq<Value>)
    | Obj(props: map<string, Value>)

  /** An exception: `new Error(message)`, or one the runtime raises itself. */
  datatype Error =
    | Error(message: string)
    | TypeError     // reading a property of null/undefined, calling a missing method
    | SyntaxError   // JSON.parse on malformed text

  /** The outcome of code that may throw. */
  datatype Result<+T> = Ok(value: T) | Err(error: Error) {
    predicate IsFailure() { Err? }
    function PropagateFailure<U>(): Result<U>
      requires Err?
    {
      Err(error)
    }
    function Extract(): T
      requires Ok?
    {
      value
    }
  }

  predicate Nullish(v: Value) {
    v.Undefined? || v.Null?
  }

  /** JavaScript truthiness: `undefined`, `null`, `false`, `0`, `NaN` and the
      empty string are falsy; every array and object is truthy. */
  predicate Truthy(v: Value) {
    match v
    case Undefined => false
    case Null => false
    case Bool(b) => b
    case Num(t) => t != "0" && t != "NaN"
    case Str(s) => s != ""
    case Arr(_) => true
    case Obj(_) => true
  }

  /** `a || b`: the left operand itself when it is truthy. */
  function Or(a: Value, b: Value): (r: Value)
    ensures Truthy(a) ==> r == a
    ensures !Truthy(a) ==> r == b
  {
    if Truthy(a) then a else b
  }

  /** The number `n`, for a non-negative integer `n`. */
  function Number(n: nat): (r: Value)
    ensures r.Num? && Truthy(r) == (n != 0)
  {
    var t := NatText(n);
    assert t != "NaN" by { assert '0' <= t[0] <= '9'; }
    Num(t)
  }

  /** `x > 0` for a number or boolean `x`; `null` and `undefined` compare as
      false. (Strings, arrays and objects are not converted to numbers here;
      see the README.) */
  predicate GreaterThanZero(v: Value) {
    match v
    case Num(t) => t != "0" && t != "NaN" && t[0] != '-'
    case Bool(b) => b
    case _ => false
  }

  /** The length of a non-empty array or string compares greater than zero. */
  lemma NumberGreaterThanZero(n: nat)
    ensures GreaterThanZero(Number(n)) <==> n > 0
  {
    var t := NatText(n);
    assert '0' <= t[0] <= '9';
  }

  /** Different lengths are different numbers. */
  lemma NumberInjective(n: nat, m: nat)
    requires n != m
    ensures Number(n) != Number(m)
  {
    if Number(n) == Number(m) {
      NatTextInjective(n, m);
    }
  }

  /** `v?.key`: reads an own property of an object, the `length` of an array or
      a string, and `undefined` for anything else (null and undefined
      included, as with optional chaining). */
  function Get(v: Value, key: string): (r: Value)
    ensures Nullish(v) ==> r == Undefined
    ensures v.Arr? && key == "length" ==> r == Number(|v.elems|)
    ensures v.Str? && key == "length" ==> r == Number(|v.s|)
    ensures v.Obj? ==> r == if key in v.props then v.props[key] else Undefined
  {
    match v
    case Obj(m) => if key in m then m[key] else Undefined
    case Arr(e) => if key == "length" then Number(|e|) else Undefined
    case Str(s) => if key == "length" then Number(|s|) else Undefined
    case _ => Undefined
  }

  /** `v.key` without optional chaining: throws on null and undefined. */
  function Prop(v: Value, key: string): (r: Result<Value>)
    ensures r.Err? <==> Nullish(v)
    ensures r.Err? ==> r.error == TypeError
    ensures r.Ok? ==> r.value == Get(v, key)
  {
    if Nullish(v) then Err(TypeError) else Ok(Get(v, key))
  }

  /** `v?.[i]`: an element of an array, a one-code-point string of a string,
      the property named by the index of an object, `undefined` otherwise. */
  function Index(v: Value, i: nat): (r: Value)
    ensures v.Arr? ==> r == if i < |v.elems| then v.elems[i] else Undefined
    ensures Nullish(v) ==> r == Undefined
  {
    match v
    case Arr(e) => if i < |e| then e[i] else Undefined
    case Str(s) => if i < |s| then Str([s[i]]) else Undefined
    case Obj(m) => Get(v, NatText(i))
    case _ => Undefined
  }

  /** `String(v)`, which is also what a template literal `${v}` and `toString()`
      produce (objects print as "[object Object]"). */
  function ToStr(v: Value): string
    decreases v, 1
  {
    match v
    case Undefined => "undefined"
    case Null => "null"
    case Bool(b) => if b then "true" else "false"
    case Num(t) => t
    case Str(s) => s
    case Arr(e) => JoinValues(e, ",")
    case Obj(_) => "[object Object]"
  }

  /** How `join` prints one element: null and undefined become empty. */
  function ElemStr(v: Value): string
    decreases v, 2
  {
    if Nullish(v) then "" else ToStr(v)
  }

  /** `Array.prototype.join`. */
  function JoinValues(elems: seq<Value>, sep: string): string
    decreases elems, 0
  {
    if elems == [] then ""
    else if |elems| == 1 then ElemStr(elems[0])
    else ElemStr(elems[0]) + sep + JoinValues(elems[1..], sep)
  }

  /** The elements of an array of strings, as values. */
  function Strs(ss: seq<string>): (r: seq<Value>)
    ensures |r| == |ss| && forall i :: 0 <= i < |ss| ==> r[i] == Str(ss[i])
  {
    seq(|ss|, i requires 0 <= i < |ss| => Str(ss[i]))
  }

  /** How `join` prints each element. */
  function ElemStrs(vs: seq<Value>): (r: seq<string>)
    ensures |r| == |vs| && forall i :: 0 <= i < |vs| ==> r[i] == ElemStr(vs[i])
  {
    seq(|vs|, i requires 0 <= i < |vs| => ElemStr(vs[i]))
  }

  /** `join` on values is the join of their printed forms. */
  lemma {:induction false} JoinValuesIsJoin(vs: seq<Value>, sep: string)
    ensures JoinValues(vs, sep) == Join(ElemStrs(vs), sep)
  {
    if |vs| > 1 {
      JoinValuesIsJoin(vs[1..], sep);
      assert ElemStrs(vs)[1..] == ElemStrs(vs[1..]);
    }
  }

  /** Joining an array of strings gives the join of the strings themselves. */
  lemma JoinStrs(ss: seq<string>, sep: string)
    ensures JoinValues(Strs(ss), sep) == Join(ss, sep)
  {
    JoinValuesIsJoin(Strs(ss), sep);
    forall i | 0 <= i < |ss|
      ensures ElemStrs(Strs(ss))[i] == ss[i]
    {
      assert ElemStrs(Strs(ss))[i] == ElemStr(Strs(ss)[i]);
      assert ElemStr(Str(ss[i])) == ss[i];
    }
    assert ElemStrs(Strs(ss)) == ss;
  }

  /** The own enumerable properties that `{...v}` copies. Only an object
      contributes any here (see the README for arrays and strings). */
  function OwnProps(v: Value): (r: map<string, Value>)
    ensures v.Obj? ==> r == v.props
    ensures !v.Obj? ==> r == map[]
  {
    if v.Obj? then v.props else map[]
  }

  /** `[...v]` in an array literal: the elements of an array, the code points
      of a string; anything else is not iterable and throws. */
  function Spread(v: Value): (r: Result<seq<Value>>)
    ensures v.Arr? ==> r == Ok(v.elems)
    ensures v.Str? ==>
      r.Ok? && |r.value| == |v.s| && forall i :: 0 <= i < |v.s| ==> r.value[i] == Str([v.s[i]])
    ensures !v.Arr? && !v.Str? ==> r == Err(TypeError)
  {
    match v
    case Arr(e) => Ok(e)
    case Str(s) => Ok(seq(|s|, i requires 0 <= i < |s| => Str([s[i]])))
    case _ => Err(TypeError)
  }
}

=== FILE: product_preview.dfy ===
/**
  The preview before saving (app/components/ProductPreviewModal.jsx): the
  initial values of the editable title, price and tag text, the parsing of the
  comma-separated tag text, and the product object submitted on save. The
  editable fields are parameters here; the React state holding them and the
  JSON.stringify of the payload are not modelled.
*/
module ProductPreview {
  import opened JsString
  import opened JsValue

  const DefaultPrice := "0.00"
  const TagSeparator := ", "

  /** The initial price: `product.variants[0]?.price || "0.00"`. */
  function InitialPrice(product: Value): (r: Result<Value>)
    ensures r.Ok? <==> !Nullish(product) && !Nullish(Get(product, "variants"))
    ensures r.Err? ==> r.error == TypeError
    ensures r.Ok? ==> Truthy(r.value)
    ensures r.Ok? ==>
      var price := Get(Index(Get(product, "variants"), 0), "price");
      && (Truthy(price) ==> r.value == price)
      && (!Truthy(price) ==> r.value == Str(DefaultPrice))
  {
    var variants :- Prop(product, "variants");
    // indexing null or undefined throws
    if Nullish(variants) then Err(TypeError)
    else Ok(Or(Get(Index(variants, 0), "price"), Str(DefaultPrice)))
  }

  /** A product without variants starts at "0.00". */
  lemma NoVariantStartsAtDefault(product: Value)
    requires !Nullish(product) && Get(product, "variants") == Arr([])
    ensures InitialPrice(product) == Ok(Str(DefaultPrice))
  {
  }

  /** The initial tag text: `product.tags.join(", ")`. */
  function InitialTagText(product: Value): (r: Result<string>)
    ensures r.Ok? <==> !Nullish(product) && Get(product, "tags").Arr?
    ensures r.Err? ==> r.error == TypeError
    ensures r.Ok? ==> r.value == JoinValues(Get(product, "tags").elems, TagSeparator)
  {
    var tags :- Prop(product, "tags");
    if tags.Arr? then Ok(JoinValues(tags.elems, TagSeparator))
    else
      // `join` exists only on arrays
      Err(TypeError)
  }

  /** `.map((t) => t.trim()).filter(Boolean)` on the pieces of the text. */
  function TrimmedTags(pieces: seq<string>): (r: seq<string>)
    ensures |r| <= |pieces|
    ensures forall i :: 0 <= i < |r| ==> r[i] != "" && IsTrimmed(r[i])
  {
    if pieces == [] then []
    else
      var t := Trim(pieces[0]);
      (if t == "" then [] else [t]) + TrimmedTags(pieces[1..])
  }

  /** The tags of a tag text: split on commas, trimmed, empty ones dropped. */
  function ParseTags(text: string): (r: seq<string>)
    ensures forall i :: 0 <= i < |r| ==> r[i] != "" && IsTrimmed(r[i])
  {
    TrimmedTags(Split(text, ','))
  }

  /** A comma-free piece trims to a comma-free tag. */
  lemma TrimKeepsNoComma(s: string)
    requires ',' !in s
    ensures ',' !in Trim(s)
  {
    var r := Trim(s);
    var i := SkipWhite(s, 0);
    TrimSlice(s);
    forall k | 0 <= k < |r|
      ensures r[k] != ','
    {
      assert r[k] == s[i + k];
    }
  }

  /** Parsed tags never contain a comma. */
  lemma {:induction false} TrimmedTagsNoComma(pieces: seq<string>)
    requires forall i :: 0 <= i < |pieces| ==> ',' !in pieces[i]
    ensures forall i :: 0 <= i < |TrimmedTags(pieces)| ==> ',' !in TrimmedTags(pieces)[i]
  {
    if pieces != [] {
      TrimKeepsNoComma(pieces[0]);
      TrimmedTagsNoComma(pieces[1..]);
    }
  }

  lemma ParsedTagsHaveNoComma(text: string)
    ensures forall i :: 0 <= i < |ParseTags(text)| ==> ',' !in ParseTags(text)[i]
  {
    TrimmedTagsNoComma(Split(text, ','));
  }

  /** A space in front of the first piece does not change the tags. */
  lemma SpaceBeforeFirstPiece(p: string, rest: seq<string>)
    ensures TrimmedTags([" " + p] + rest) == TrimmedTags([p] + rest)
  {
    TrimSkipsLeadingWhite(" ", p);
    assert ([" " + p] + rest)[1..] == rest;
    assert ([p] + rest)[1..] == rest;
  }

  /** A space in front of the text only pads its first piece. */
  lemma SplitAfterSpace(s: string)
    ensures Split(" " + s, ',') == [" " + Split(s, ',')[0]] + Split(s, ',')[1..]
  {
    var t := " " + s;
    assert t[0] == ' ' && t[1..] == s;
  }

  /** The tags of text that begins with a space are those of the text without it. */
  lemma ParseTagsAfterSpace(s: string)
    ensures ParseTags(" " + s) == ParseTags(s)
  {
    var pieces := Split(s, ',');
    SplitAfterSpace(s);
    SpaceBeforeFirstPiece(pieces[0], pieces[1..]);
    assert [pieces[0]] + pieces[1..] == pieces;
  }

  /** Parsing the joined text of clean tags gives the tags back. */
  lemma {:induction false} ParseJoinedTags(tags: seq<string>)
    requires forall i :: 0 <= i < |tags| ==> tags[i] != "" && IsTrimmed(tags[i]) && ',' !in tags[i]
    ensures ParseTags(Join(tags, TagSeparator)) == tags
  {
    if tags == [] {
      assert Split("", ',') == [""];
      assert Trim("") == "" by { TrimOfTrimmed(""); }
    } else if |tags| == 1 {
      SplitNoSeparator(tags[0], ',');
      TrimOfTrimmed(tags[0]);
      assert TrimmedTags([tags[0]]) == [tags[0]] + TrimmedTags([]);
    } else {
      var t0 := tags[0];
      var rest := Join(tags[1..], TagSeparator);
      assert Join(tags, TagSeparator) == t0 + [','] + (" " + rest);
      SplitAfterPiece(t0, ',', " " + rest);
      ParseTagsAfterSpace(rest);
      ParseJoinedTags(tags[1..]);
      TrimOfTrimmed(t0);
      var pieces := [t0] + Split(" " + rest, ',');
      assert pieces[1..] == Split(" " + rest, ',');
      assert TrimmedTags(pieces) == [t0] + ParseTags(" " + rest);
      assert [t0] + tags[1..] == tags;
    }
  }

  /** Re-opening saved tags and saving again keeps them: parsing is stable
      under joining its own result. */
  lemma ParseTagsStable(text: string)
    ensures ParseTags(Join(ParseTags(text), TagSeparator)) == ParseTags(text)
  {
    ParsedTagsHaveNoComma(text);
    ParseJoinedTags(ParseTags(text));
  }

  /** `{...base, title, tags, variants}`: the fields of `base`, then the three
      given ones, which win over fields of the same name. */
  function WithSavedFields(base: map<string, Value>, title: Value, tags: Value, variants: Value)
    : (r: map<string, Value>)
    ensures "title" in r && r["title"] == title
    ensures "tags" in r && r["tags"] == tags
    ensures "variants" in r && r["variants"] == variants
    ensures forall k :: k in base && k != "title" && k != "tags" && k != "variants" ==> k in r && r[k] == base[k]
    ensures forall k :: k in r ==> k == "title" || k == "tags" || k == "variants" || k in base
  {
    base["title" := title]["tags" := tags]["variants" := variants]
  }

  /** `{...first, price}`: the fields of `first` with the price replaced. */
  function WithPrice(first: map<string, Value>, price: Value): (r: map<string, Value>)
    ensures "price" in r && r["price"] == price
    ensures forall k :: k in first && k != "price" ==> k in r && r[k] == first[k]
    ensures forall k :: k in r ==> k == "price" || k in first
  {
    first["price" := price]
  }

  /** The product object submitted on save: the product's own fields, the
      edited title, the parsed tags, and a single variant made of the first
      variant's fields with the edited price. */
  function SavePayload(product: Value, title: Value, price: Value, tagText: string): (r: Result<Value>)
    ensures r.Ok? <==> !Nullish(product) && !Nullish(Get(product, "variants"))
    ensures r.Err? ==> r.error == TypeError
    ensures r.Ok? ==>
      && r.value.Obj?
      && "title" in r.value.props && r.value.props["title"] == title
      && "tags" in r.value.props && r.value.props["tags"] == Arr(Strs(ParseTags(tagText)))
  {
    var variants :- Prop(product, "variants");
    // indexing null or undefined throws
    if Nullish(variants) then Err(TypeError)
    else
      var variant := Obj(WithPrice(OwnProps(Index(variants, 0)), price));
      Ok(Obj(WithSavedFields(OwnProps(product), title, Arr(Strs(ParseTags(tagText))), Arr([variant]))))
  }

  /** The saved payload holds exactly one variant: the first variant's fields,
      with the edited price in place of its own. */
  lemma SavedSingleVariant(product: Value, title: Value, price: Value, tagText: string)
    requires SavePayload(product, title, price, tagText).Ok?
    ensures var props := SavePayload(product, title, price, tagText).value.props;
      var first := OwnProps(Index(Get(product, "variants"), 0));
      && "variants" in props && props["variants"].Arr? && |props["variants"].elems| == 1
      && props["variants"].elems[0].Obj?
      && var saved := props["variants"].elems[0].props;
      && "price" in saved && saved["price"] == price
      && (forall k :: k in first && k != "price" ==> k in saved && saved[k] == first[k])
      && (forall k :: k in saved ==> k == "price" || k in first)
  {
  }

  /** Every product field other than the title, tags and variants is copied
      unchanged, and the payload has no other fields. */
  lemma SavedFieldsCopied(product: Value, title: Value, price: Value, tagText: string)
    requires SavePayload(product, title, price, tagText).Ok?
    ensures product.Obj?
    ensures var props := SavePayload(product, title, price, tagText).value.props;
      && (forall k :: k in product.props && k != "title" && k != "tags" && k != "variants" ==>
            k in props && props[k] == product.props[k])
      && (forall k :: k in props ==> k == "title" || k == "tags" || k == "variants" || k in product.props)
  {
  }

  /** Saving unedited tags keeps them, when they are non-empty, trimmed and
      free of commas. */
  lemma UneditedTagsSurvive(product: Value, title: Value, price: Value, tags: seq<string>)
    requires !Nullish(product) && !Nullish(Get(product, "variants"))
    requires Get(product, "tags") == Arr(Strs(tags))
    requires forall i :: 0 <= i < |tags| ==> tags[i] != "" && IsTrimmed(tags[i]) && ',' !in tags[i]
    ensures InitialTagText(product).Ok?
    ensures SavePayload(product, title, price, InitialTagText(product).value).value.props["tags"]
         == Get(product, "tags")
  {
    JoinStrs(tags, TagSeparator);
    ParseJoinedTags(tags);
  }
}

=== FILE: shopify_admin.dfy ===
/**
  The store's Admin API as the modelled code uses it: the inputs of the
  mutations it sends, the requests themselves (including the staged-upload
  POST made with `fetch`), and the replies, which are treated as an oracle.
  A modelled operation returns its outcome together with the requests it
  issued, in order.
*/
module ShopifyAdmin {
  import opened JsValue
  import Utf8

  /** One `CreateMediaInput` of productCreateMedia. */
  datatype MediaInput = MediaInput(mediaContentType: string, originalSource: string, alt: string)

  /** The `ProductInput` of productCreate. */
  datatype ProductInput = ProductInput(
    title: Value,
    descriptionHtml: Value,
    tags: Value,
    vendor: Value,
    productType: Value,
    status: string)

  /** One entry of a variant's `optionValues`. */
  datatype OptionValueInput = OptionValueInput(optionName: string, name: Value)

  /** One `ProductVariantsBulkInput`; `compareAtPrice` is a string or null. */
  datatype VariantInput = VariantInput(price: string, compareAtPrice: Value, optionValues: seq<OptionValueInput>)

  /** A request sent to the store. */
  datatype Request =
    | StagedUploadCreate(filename: string)
    | StagedUploadPost(url: Value, contentType: string, body: seq<Utf8.byte>)
    | ProductCreateMedia(productId: Value, media: seq<MediaInput>)
    | ProductCreate(input: ProductInput)
    | ProductVariantsBulkCreate(productId: Value, variants: seq<VariantInput>)

  /** What the store answers: the decoded JSON body of a GraphQL reply, or for
      the staged POST a response object with `ok` and `statusText`; `Err` when
      the call or the decoding throws. */
  type Network = Request -> Result<Value>

  /** The outcome of an operation and the requests it issued, in order. */
  datatype Run<T> = Run(result: Result<T>, sent: seq<Request>)

  /** `errors.map((e) => e.message)` on the elements of an array. */
  function MessagesOfElems(errors: seq<Value>): (r: Result<seq<Value>>)
    ensures r.Ok? <==> forall i :: 0 <= i < |errors| ==> !Nullish(errors[i])
    ensures r.Err? ==> r.error == TypeError
    ensures r.Ok? ==> |r.value| == |errors|
    ensures r.Ok? ==> forall i :: 0 <= i < |errors| ==> r.value[i] == Get(errors[i], "message")
  {
    if errors == [] then Ok([])
    else
      var m :- Prop(errors[0], "message");
      var rest :- MessagesOfElems(errors[1..]);
      assert forall i :: 1 <= i < |errors| ==> errors[i] == errors[1..][i - 1];
      Ok([m] + rest)
  }

  /** `errors.map((e) => e.message).join(", ")`: the messages of a list of
      GraphQL errors joined by a comma and a space. Throws a TypeError when
      `errors` is not an array or one of its entries is null or undefined. */
  function JoinedMessages(errors: Value): (r: Result<string>)
    ensures r.Ok? <==> errors.Arr? && forall i :: 0 <= i < |errors.elems| ==> !Nullish(errors.elems[i])
    ensures r.Err? ==> r.error == TypeError
    ensures r.Ok? ==> r.value == JoinValues(MessagesOfElems(errors.elems).value, ", ")
  {
    if !errors.Arr? then Err(TypeError)
    else
      var ms :- MessagesOfElems(errors.elems);
      Ok(JoinValues(ms, ", "))
  }
}

=== FILE: upload_media.dfy ===
/**
  Attaching images to a product (app/graphql/uploadMedia.js).

  uploadProductImages classifies each image string: a URL is used as it is,
  a long non-URL string is taken to be base64 data and sent through a staged
  upload (a placeholder URL replacing it when that fails), anything else is
  dropped. The survivors, in order, become the media of one productCreateMedia
  mutation, which is not sent at all when nothing survives.

  The staged upload builds a multipart/form-data body by hand: one part per
  parameter the store returned, then the file part, each opened by a boundary
  delimiter line and the whole closed by the close delimiter (section 5.1.1 of
  RFC 2046), each part named by a Content-Disposition header (section 4.2 of
  RFC 7578).
*/
module UploadMedia {
  import opened JsString
  import opened JsValue
  import opened Utf8
  import opened ShopifyAdmin

  const Crlf := "\r\n"
  const BoundaryPrefix := "----WebKitFormBoundary"
  const InvalidBase64 := "Invalid base64 image data"
  const NoStagedUrl := "No staged upload URL received from Shopify"
  const StagedUploadFailed := "Staged upload failed: "
  const PlaceholderPrefix := "https://picsum.photos/600/600?random="

  /** The multipart boundary; `nonce` stands for the random base-36 digits. */
  function BoundaryOf(nonce: string): string {
    BoundaryPrefix + nonce
  }

  // ---------------------------------------------------------------------
  // The multipart body

  /** The four text parts pushed for one staged parameter: the delimiter, the
      Content-Disposition header naming it, the empty line and its value. */
  function ParamParts(param: Value, boundary: string): (r: Result<seq<Value>>)
    ensures r.Ok? <==> !Nullish(param)
    ensures r.Err? ==> r.error == TypeError
    ensures r.Ok? ==> |r.value| == 4
  {
    var name :- Prop(param, "name");
    Ok([Str("--" + boundary),
        Str("Content-Disposition: form-data; name=\"" + ToStr(name) + "\""),
        Str(""),
        Get(param, "value")])
  }

  /** The text parts pushed by the `forEach` over the parameters, in order;
      a null or undefined parameter throws. */
  function ParamsParts(params: seq<Value>, boundary: string): (r: Result<seq<Value>>)
    ensures r.Ok? <==> forall i :: 0 <= i < |params| ==> !Nullish(params[i])
    ensures r.Err? ==> r.error == TypeError
    ensures r.Ok? ==> |r.value| == 4 * |params|
  {
    if params == [] then Ok([])
    else
      var init :- ParamsParts(params[..|params| - 1], boundary);
      var last :- ParamParts(params[|params| - 1], boundary);
      assert forall i :: 0 <= i < |params| - 1 ==> params[i] == params[..|params| - 1][i];
      Ok(init + last)
  }

  /** The header lines of the file part. */
  function FileHeaderParts(boundary: string, fileName: string): seq<Value> {
    [Str("--" + boundary),
     Str("Content-Disposition: form-data; name=\"file\"; filename=\"" + fileName + "\""),
     Str("Content-Type: image/jpeg"),
     Str("")]
  }

  /** All text parts: those of the parameters when `parameters` is an array,
      then the file header. */
  function TextParts(parameters: Value, boundary: string, fileName: string): (r: Result<seq<Value>>)
    ensures r.Ok? <==> !parameters.Arr? || forall i :: 0 <= i < |parameters.elems| ==> !Nullish(parameters.elems[i])
    ensures r.Err? ==> r.error == TypeError
    // four parts per parameter, then the file header last
    ensures r.Ok? ==> && |r.value| == (if parameters.Arr? then 4 * |parameters.elems| else 0) + 4
                      && r.value[|r.value| - 4..] == FileHeaderParts(boundary, fileName)
  {
    var paramParts :- if parameters.Arr? then ParamsParts(parameters.elems, boundary) else Ok([]);
    Ok(paramParts + FileHeaderParts(boundary, fileName))
  }

  /** The close delimiter that ends the body. */
  function CloseDelimiter(boundary: string): string {
    Crlf + "--" + boundary + "--"
  }

  /** The request body: the text parts joined by CRLF with a final CRLF, the
      payload bytes, then the close delimiter. */
  function MultipartBody(parameters: Value, boundary: string, fileName: string, payload: seq<byte>)
    : (r: Result<seq<byte>>)
    ensures r.Ok? <==> TextParts(parameters, boundary, fileName).Ok?
    ensures r.Err? ==> r.error == TypeError
  {
    var parts :- TextParts(parameters, boundary, fileName);
    Ok(Encode(JoinValues(parts, Crlf) + Crlf) + payload + Encode(CloseDelimiter(boundary)))
  }

  /** Whatever the parameters, the payload bytes sit unchanged just before
      the close delimiter. */
  lemma PayloadBeforeClose(parameters: Value, boundary: string, fileName: string, payload: seq<byte>)
    requires MultipartBody(parameters, boundary, fileName, payload).Ok?
    ensures var body := MultipartBody(parameters, boundary, fileName, payload).value;
      var tail := payload + Encode(CloseDelimiter(boundary));
      |tail| <= |body| && body[|body| - |tail|..] == tail
  {
    var parts := TextParts(parameters, boundary, fileName).value;
    var head := Encode(JoinValues(parts, Crlf) + Crlf);
    var tail := payload + Encode(CloseDelimiter(boundary));
    assert head + payload + Encode(CloseDelimiter(boundary)) == head + tail;
    assert (head + tail)[|head|..] == tail;
  }

  /** The body as uploadBase64ToShopify builds it: `textParts` grown by
      `push`, then joined and concatenated with the payload. */
  method BuildMultipartBody(parameters: Value, boundary: string, fileName: string, payload: seq<byte>)
    returns (r: Result<seq<byte>>)
    ensures r == MultipartBody(parameters, boundary, fileName, payload)
  {
    var textParts: seq<Value> := [];
    if parameters.Arr? {
      var params := parameters.elems;
      var i := 0;
      while i < |params|
        invariant 0 <= i <= |params|
        invariant ParamsParts(params[..i], boundary) == Ok(textParts)
      {
        var param := params[i];
        if Nullish(param) {
          // `param.name` throws
          assert params[..i + 1][..i] == params[..i];
          return Err(TypeError);
        }
        ghost var before := textParts;
        textParts := textParts + [Str("--" + boundary)];
        textParts := textParts + [Str("Content-Disposition: form-data; name=\"" + ToStr(Get(param, "name")) + "\"")];
        textParts := textParts + [Str("")];
        textParts := textParts + [Get(param, "value")];
        assert textParts == before + ParamParts(param, boundary).value;
        assert params[..i + 1][..i] == params[..i];
        i := i + 1;
      }
      assert params[..i] == params;
    }
    ghost var paramParts := textParts;
    textParts := textParts + [Str("--" + boundary)];
    textParts := textParts + [Str("Content-Disposition: form-data; name=\"file\"; filename=\"" + fileName + "\"")];
    textParts := textParts + [Str("Content-Type: image/jpeg")];
    textParts := textParts + [Str("")];
    assert textParts == paramParts + FileHeaderParts(boundary, fileName);
    var textPart := JoinValues(textParts, Crlf) + Crlf;
    var endPart := CloseDelimiter(boundary);
    r := Ok(Encode(textPart) + payload + Encode(endPart));
  }

  /** The lines of one parameter part: delimiter, header, empty line, value. */
  function ParamLines(param: Value, boundary: string): seq<string> {
    ["--" + boundary,
     "Content-Disposition: form-data; name=\"" + ToStr(Get(param, "name")) + "\"",
     "",
     ElemStr(Get(param, "value"))]
  }

  /** One parameter part as it appears in the body, each line ended by CRLF. */
  function ParamPartText(param: Value, boundary: string): string {
    Lines(ParamLines(param, boundary), Crlf)
  }

  /** The parameter parts, in order. */
  function ParamsText(params: seq<Value>, boundary: string): string {
    if params == [] then ""
    else ParamsText(params[..|params| - 1], boundary) + ParamPartText(params[|params| - 1], boundary)
  }

  /** The header lines of the file part, up to the payload. */
  function FileHeaderLines(boundary: string, fileName: string): seq<string> {
    ["--" + boundary,
     "Content-Disposition: form-data; name=\"file\"; filename=\"" + fileName + "\"",
     "Content-Type: image/jpeg",
     ""]
  }

  /** The file part's header as it appears in the body, up to the payload. */
  function FileHeaderText(boundary: string, fileName: string): string {
    Lines(FileHeaderLines(boundary, fileName), Crlf)
  }

  /** Printing a concatenation prints each half. */
  lemma ElemStrsAppend(a: seq<Value>, b: seq<Value>)
    ensures ElemStrs(a + b) == ElemStrs(a) + ElemStrs(b)
  {
    assert forall i :: 0 <= i < |a| ==> (a + b)[i] == a[i];
    assert forall i :: |a| <= i < |a| + |b| ==> (a + b)[i] == b[i - |a|];
  }

  /** The parts of a parameter print as its lines. */
  lemma ParamPartsPrint(param: Value, boundary: string)
    requires !Nullish(param)
    ensures ElemStrs(ParamParts(param, boundary).value) == ParamLines(param, boundary)
  {
    var g := ParamParts(param, boundary).value;
    assert ElemStrs(g)[0] == ElemStr(g[0]);
    assert ElemStrs(g)[1] == ElemStr(g[1]);
    assert ElemStrs(g)[2] == ElemStr(g[2]);
    assert ElemStrs(g)[3] == ElemStr(g[3]);
  }

  /** The file header parts print as its lines. */
  lemma FileHeaderPrint(boundary: string, fileName: string)
    ensures ElemStrs(FileHeaderParts(boundary, fileName)) == FileHeaderLines(boundary, fileName)
  {
    var h := FileHeaderParts(boundary, fileName);
    assert ElemStrs(h)[0] == ElemStr(h[0]);
    assert ElemStrs(h)[1] == ElemStr(h[1]);
    assert ElemStrs(h)[2] == ElemStr(h[2]);
    assert ElemStrs(h)[3] == ElemStr(h[3]);
  }

  /** The parts of the parameters, each followed by CRLF, are the parameter
      texts in order. */
  lemma {:induction false} ParamsLines(params: seq<Value>, boundary: string)
    requires forall i :: 0 <= i < |params| ==> !Nullish(params[i])
    ensures Lines(ElemStrs(ParamsParts(params, boundary).value), Crlf) == ParamsText(params, boundary)
  {
    if params != [] {
      var init := params[..|params| - 1];
      var last := params[|params| - 1];
      var a := ParamsParts(init, boundary).value;
      var g := ParamParts(last, boundary).value;
      assert ParamsParts(params, boundary).value == a + g;
      ElemStrsAppend(a, g);
      LinesAppend(ElemStrs(a), ElemStrs(g), Crlf);
      ParamsLines(init, boundary);
      ParamPartsPrint(last, boundary);
    }
  }

  /** Joining non-empty parts by CRLF and adding a CRLF ends every part's line. */
  lemma JoinedPartsAreLines(parts: seq<Value>)
    requires parts != []
    ensures JoinValues(parts, Crlf) + Crlf == Lines(ElemStrs(parts), Crlf)
  {
    JoinValuesIsJoin(parts, Crlf);
    JoinThenEnd(ElemStrs(parts), Crlf);
  }

  /** The layout of the body when every parameter is an object: the parameter
      parts in their given order, the file header, the payload bytes as they
      are, and the close delimiter. The body opens with a delimiter line. */
  lemma MultipartLayout(params: seq<Value>, boundary: string, fileName: string, payload: seq<byte>)
    requires forall i :: 0 <= i < |params| ==> !Nullish(params[i])
    ensures var text := ParamsText(params, boundary) + FileHeaderText(boundary, fileName);
      && MultipartBody(Arr(params), boundary, fileName, payload)
         == Ok(Encode(text) + payload + Encode(Crlf + "--" + boundary + "--"))
      && StartsWith(text, "--" + boundary + Crlf)
  {
    var a := ParamsParts(params, boundary).value;
    var header := FileHeaderParts(boundary, fileName);
    assert TextParts(Arr(params), boundary, fileName) == Ok(a + header);
    JoinedPartsAreLines(a + header);
    ElemStrsAppend(a, header);
    LinesAppend(ElemStrs(a), ElemStrs(header), Crlf);
    ParamsLines(params, boundary);
    FileHeaderPrint(boundary, fileName);
    BodyTextStart(params, boundary, fileName);
  }

  /** The text before the payload opens with a delimiter line. */
  lemma BodyTextStart(params: seq<Value>, boundary: string, fileName: string)
    ensures StartsWith(ParamsText(params, boundary) + FileHeaderText(boundary, fileName), "--" + boundary + Crlf)
  {
    var h := FileHeaderText(boundary, fileName);
    var t := ParamsText(params, boundary);
    var d := "--" + boundary + Crlf;
    if params == [] {
      assert t + h == h;
      LinesStart(FileHeaderLines(boundary, fileName), Crlf);
    } else {
      ParamsTextStart(params, boundary);
      assert (t + h)[..|d|] == t[..|d|];
    }
  }

  lemma {:induction false} ParamsTextStart(params: seq<Value>, boundary: string)
    requires params != []
    ensures StartsWith(ParamsText(params, boundary), "--" + boundary + Crlf)
  {
    var init := params[..|params| - 1];
    var d := "--" + boundary + Crlf;
    var p := ParamPartText(params[|params| - 1], boundary);
    LinesStart(ParamLines(params[|params| - 1], boundary), Crlf);
    if init != [] {
      ParamsTextStart(init, boundary);
      var t := ParamsText(init, boundary);
      assert (t + p)[..|d|] == t[..|d|];
    } else {
      assert ParamsText(params, boundary) == "" + p;
      assert "" + p == p;
    }
  }

  /** Without a parameter array, the body is the file part alone. */
  lemma MultipartWithoutParameters(parameters: Value, boundary: string, fileName: string, payload: seq<byte>)
    requires !parameters.Arr?
    ensures MultipartBody(parameters, boundary, fileName, payload)
         == Ok(Encode(FileHeaderText(boundary, fileName)) + payload + Encode(CloseDelimiter(boundary)))
  {
    var header := FileHeaderParts(boundary, fileName);
    assert [] + header == header;
    JoinedPartsAreLines(header);
    FileHeaderPrint(boundary, fileName);
  }

  // ---------------------------------------------------------------------
  // The staged upload

  /** Buffer.from(base64, "base64"), abstracted. */
  type Base64Decoder = string -> seq<byte>

  /** The `stagedUpload` object of a stagedUploadCreate reply, or the error
      thrown for user errors or a missing upload URL. */
  function StagedTarget(stagedData: Value): (r: Result<Value>)
    ensures Nullish(stagedData) ==> r == Err(TypeError)
    // on success: `data.stagedUploadCreate.stagedUpload`, with a truthy url,
    // and no user errors of positive length
    ensures r.Ok? ==>
      var created := Get(Get(stagedData, "data"), "stagedUploadCreate");
      && r.value == Get(created, "stagedUpload")
      && Truthy(r.value) && Truthy(Get(r.value, "url"))
      && !GreaterThanZero(Get(Get(created, "userErrors"), "length"))
    // user errors: their messages joined, or the TypeError of reading them
    ensures !Nullish(stagedData) ==>
      var created := Get(Get(stagedData, "data"), "stagedUploadCreate");
      var userErrors := Get(created, "userErrors");
      GreaterThanZero(Get(userErrors, "length")) ==>
        && (JoinedMessages(userErrors).Ok? ==> r == Err(Error(JoinedMessages(userErrors).value)))
        && (JoinedMessages(userErrors).Err? ==> r == Err(JoinedMessages(userErrors).error))
    // no user errors: the staged upload when it and its url are truthy,
    // otherwise the missing-URL failure
    ensures !Nullish(stagedData) ==>
      var created := Get(Get(stagedData, "data"), "stagedUploadCreate");
      var stagedUpload := Get(created, "stagedUpload");
      !GreaterThanZero(Get(Get(created, "userErrors"), "length")) ==>
        && (Truthy(stagedUpload) && Truthy(Get(stagedUpload, "url")) ==> r == Ok(stagedUpload))
        && (!Truthy(stagedUpload) || !Truthy(Get(stagedUpload, "url")) ==> r == Err(Error(NoStagedUrl)))
  {
    var data :- Prop(stagedData, "data");
    var created := Get(data, "stagedUploadCreate");
    var userErrors := Get(created, "userErrors");
    if GreaterThanZero(Get(userErrors, "length")) then
      var message :- JoinedMessages(userErrors);
      Err(Error(message))
    else
      var stagedUpload := Get(created, "stagedUpload");
      if !Truthy(stagedUpload) || !Truthy(Get(stagedUpload, "url")) then Err(Error(NoStagedUrl))
      else Ok(stagedUpload)
  }

  /** A stagedUploadCreate reply body with the given user errors and staged
      upload. */
  function StagedReply(userErrors: Value, stagedUpload: Value): Value {
    Obj(map["data" := Obj(map["stagedUploadCreate" :=
      Obj(map["userErrors" := userErrors, "stagedUpload" := stagedUpload])])])
  }

  /** A reply without user errors yields its staged upload when that has a
      URL. */
  lemma StagedTargetOfReply(stagedUpload: Value)
    requires Truthy(stagedUpload) && Truthy(Get(stagedUpload, "url"))
    ensures StagedTarget(StagedReply(Arr([]), stagedUpload)) == Ok(stagedUpload)
  {
    var created := Get(Get(StagedReply(Arr([]), stagedUpload), "data"), "stagedUploadCreate");
    assert Get(created, "userErrors") == Arr([]);
    NumberGreaterThanZero(0);
  }

  /** A reply with one user error fails with that error's message, whatever
      the staged upload. */
  lemma StagedUserErrorOfReply(message: string, stagedUpload: Value)
    ensures StagedTarget(StagedReply(Arr([Obj(map["message" := Str(message)])]), stagedUpload))
         == Err(Error(message))
  {
    var userError := Obj(map["message" := Str(message)]);
    var created := Get(Get(StagedReply(Arr([userError]), stagedUpload), "data"), "stagedUploadCreate");
    assert Get(created, "userErrors") == Arr([userError]);
    NumberGreaterThanZero(1);
    assert Get(userError, "message") == Str(message);
    var ms := MessagesOfElems([userError]).value;
    assert ms == [Str(message)];
    assert JoinValues(ms, ", ") == ElemStr(Str(message)) == message;
  }

  /** Every request is part of a staged upload. */
  predicate OnlyStaged(sent: seq<Request>) {
    forall k :: 0 <= k < |sent| ==> sent[k].StagedUploadCreate? || sent[k].StagedUploadPost?
  }

  lemma OnlyStagedAppend(a: seq<Request>, b: seq<Request>)
    requires OnlyStaged(a) && OnlyStaged(b)
    ensures OnlyStaged(a + b)
  {
    assert forall k :: |a| <= k < |a + b| ==> (a + b)[k] == b[k - |a|];
  }

  /** How the answer to the staged POST decides the upload's result: a
      failed request or a null answer throws; an answer whose `ok` is falsy
      fails with "Staged upload failed: " and its status text; a truthy `ok`
      succeeds. */
  predicate StagedPostOutcome(result: Result<Value>, response: Result<Value>) {
    && (response.Err? ==> result == Err(response.error))
    && (response.Ok? && Nullish(response.value) ==> result == Err(TypeError))
    && (response.Ok? && !Nullish(response.value) && !Truthy(Get(response.value, "ok")) ==>
          result == Err(Error(StagedUploadFailed + ToStr(Get(response.value, "statusText")))))
    && (response.Ok? && !Nullish(response.value) && Truthy(Get(response.value, "ok")) ==> result.Ok?)
  }

  /** The result once the POST is answered: the staged upload's
      `resourceUrl` when the answer is ok. */
  function StagedPostResult(response: Result<Value>, stagedUpload: Value): (r: Result<Value>)
    ensures StagedPostOutcome(r, response)
    ensures r.Ok? ==> r.value == Get(stagedUpload, "resourceUrl")
  {
    var answer :- response;
    var ok :- Prop(answer, "ok");
    if !Truthy(ok) then Err(Error(StagedUploadFailed + ToStr(Get(answer, "statusText"))))
    else Ok(Get(stagedUpload, "resourceUrl"))
  }

  /** uploadBase64ToShopify: the `resourceUrl` of the staged upload, or the
      error it throws, and the requests issued. */
  function UploadBase64ToShopify(net: Network, decode: Base64Decoder, base64Image: string,
                                 fileName: string, nonce: string): (r: Run<Value>)
    // a short payload is refused before any request
    ensures |base64Image| < 100 ==> r == Run(Err(Error(InvalidBase64)), [])
    // otherwise the staged upload is requested first, and at most the POST follows
    ensures |base64Image| >= 100 ==> 1 <= |r.sent| <= 2 && r.sent[0] == StagedUploadCreate(fileName)
    ensures |r.sent| == 2 ==>
      (r.sent[1].StagedUploadPost? && r.sent[1].contentType == "multipart/form-data; boundary=" + BoundaryOf(nonce))
    ensures OnlyStaged(r.sent)
    // success returns the staged upload's `resourceUrl`, after the POST
    ensures r.result.Ok? ==>
      && |r.sent| == 2 && net(r.sent[0]).Ok? && StagedTarget(net(r.sent[0]).value).Ok?
      && r.result.value == Get(StagedTarget(net(r.sent[0]).value).value, "resourceUrl")
    // the POST's answer decides the result
    ensures |r.sent| == 2 ==> StagedPostOutcome(r.result, net(r.sent[1]))
  {
    if base64Image == "" || |base64Image| < 100 then
      Run(Err(Error(InvalidBase64)), [])
    else
      var create := StagedUploadCreate(fileName);
      match net(create)
      case Err(e) => Run(Err(e), [create])
      case Ok(stagedData) =>
        match StagedTarget(stagedData)
        case Err(e) => Run(Err(e), [create])
        case Ok(stagedUpload) =>
          var boundary := BoundaryOf(nonce);
          match MultipartBody(Get(stagedUpload, "parameters"), boundary, fileName, decode(base64Image))
          case Err(e) => Run(Err(e), [create])
          case Ok(body) =>
            var post := StagedUploadPost(Get(stagedUpload, "url"), "multipart/form-data; boundary=" + boundary, body);
            Run(StagedPostResult(net(post), stagedUpload), [create, post])
  }

  /** When only stagedUploadCreate was sent, the upload failed: with the
      request's own error, with the reply's failure, or with the TypeError of
      a null staged parameter while building the body. */
  lemma StagedCreateFailures(net: Network, decode: Base64Decoder, base64Image: string, fileName: string, nonce: string)
    requires |UploadBase64ToShopify(net, decode, base64Image, fileName, nonce).sent| == 1
    ensures var r := UploadBase64ToShopify(net, decode, base64Image, fileName, nonce);
      var reply := net(StagedUploadCreate(fileName));
      && r.result.Err?
      && (reply.Err? ==> r.result == Err(reply.error))
      && (reply.Ok? && StagedTarget(reply.value).Err? ==> r.result == Err(StagedTarget(reply.value).error))
      && (reply.Ok? && StagedTarget(reply.value).Ok? ==>
            && r.result == Err(TypeError)
            && MultipartBody(Get(StagedTarget(reply.value).value, "parameters"), BoundaryOf(nonce),
                             fileName, decode(base64Image)).Err?)
  {
  }

  /** The POST carries exactly the multipart body built from the staged
      parameters and the decoded payload. */
  lemma StagedPostBody(net: Network, decode: Base64Decoder, base64Image: string, fileName: string, nonce: string)
    requires |UploadBase64ToShopify(net, decode, base64Image, fileName, nonce).sent| == 2
    ensures var r := UploadBase64ToShopify(net, decode, base64Image, fileName, nonce);
      var reply := net(StagedUploadCreate(fileName));
      && reply.Ok?
      && var target := StagedTarget(reply.value);
      target.Ok?
      && r.sent[1].url == Get(target.value, "url")
      && MultipartBody(Get(target.value, "parameters"), BoundaryOf(nonce), fileName, decode(base64Image))
         == Ok(r.sent[1].body)
  {
  }

  // ---------------------------------------------------------------------
  // Classifying and processing the images

  /** What happens to one entry of the image list. */
  datatype Kind =
    | Drop               // not a string, empty, or short and not a URL
    | Direct(url: string)
    | Base64(data: string)

  predicate IsHttpUrl(s: string) {
    StartsWith(s, "http://") || StartsWith(s, "https://")
  }

  function Classify(image: Value): Kind {
    if !Truthy(image) || !image.Str? then Drop
    else if IsHttpUrl(image.s) then Direct(image.s)
    else if |image.s| > 100 then Base64(image.s)
    else Drop
  }

  /** The three outcomes: a URL string is used as it is, whatever its length;
      any other string longer than 100 is uploaded; everything else, the
      empty string included, is dropped. */
  lemma ClassifyCases(image: Value)
    ensures image.Str? && IsHttpUrl(image.s) ==> Classify(image) == Direct(image.s)
    ensures image.Str? && !IsHttpUrl(image.s) && |image.s| > 100 ==> Classify(image) == Base64(image.s)
    ensures !image.Str? || (!IsHttpUrl(image.s) && |image.s| <= 100) ==> Classify(image) == Drop
  {
  }

  /** The sources of randomness and time: the random boundary digits and the
      `Date.now()` reading taken for the image at each index. */
  datatype Env = Env(nonce: nat -> string, clock: nat -> nat)

  /** `image-{index + 1}.jpg`. */
  function ImageFileName(index: nat): string {
    "image-" + NatText(index + 1) + ".jpg"
  }

  /** The placeholder that replaces a failed upload. */
  function Placeholder(now: nat, index: nat): string {
    PlaceholderPrefix + NatText(now + index)
  }

  /** One processed image and the requests issued for it. */
  datatype Processed = Processed(value: Value, sent: seq<Request>)

  /** The callback of `images.map`: the URL to use for this entry, or null. */
  function ProcessImage(net: Network, decode: Base64Decoder, env: Env, image: Value, index: nat): (r: Processed)
    ensures OnlyStaged(r.sent)
  {
    match Classify(image)
    case Drop => Processed(Null, [])
    case Direct(url) => Processed(Str(url), [])
    case Base64(data) =>
      var up := UploadBase64ToShopify(net, decode, data, ImageFileName(index), env.nonce(index));
      if up.result.Ok? then Processed(up.result.value, up.sent)
      else Processed(Str(Placeholder(env.clock(index), index)), up.sent)
  }

  /** The processed entries and every request, in index order. */
  datatype Batch = Batch(values: seq<Value>, sent: seq<Request>)

  /** All images processed in order; `first` is the index of `images[0]`. */
  function ProcessImages(net: Network, decode: Base64Decoder, env: Env, images: seq<Value>, first: nat)
    : (r: Batch)
    ensures |r.values| == |images|
    ensures forall i :: 0 <= i < |images| ==>
      r.values[i] == ProcessImage(net, decode, env, images[i], first + i).value
    ensures OnlyStaged(r.sent)
  {
    Batch(seq(|images|, i requires 0 <= i < |images| => ProcessImage(net, decode, env, images[i], first + i).value),
          RequestsOf(net, decode, env, images, first))
  }

  /** The requests issued for each image, in index order. */
  function RequestsOf(net: Network, decode: Base64Decoder, env: Env, images: seq<Value>, first: nat)
    : (sent: seq<Request>)
    ensures OnlyStaged(sent)
  {
    if images == [] then []
    else
      var p := ProcessImage(net, decode, env, images[0], first);
      var rest := RequestsOf(net, decode, env, images[1..], first + 1);
      OnlyStagedAppend(p.sent, rest);
      p.sent + rest
  }

  /** `filter((url) => url && typeof url === "string")`. */
  function Survivors(values: seq<Value>): (r: seq<string>)
    ensures forall i :: 0 <= i < |r| ==> r[i] != ""
    ensures |r| <= |values|
  {
    if values == [] then []
    else
      var rest := Survivors(values[1..]);
      if values[0].Str? && values[0].s != "" then [values[0].s] + rest else rest
  }

  /** The filter works element by element: survivors of a concatenation are
      the survivors of each half, in order. */
  lemma {:induction false} SurvivorsAppend(a: seq<Value>, b: seq<Value>)
    ensures Survivors(a + b) == Survivors(a) + Survivors(b)
  {
    if a == [] {
      assert a + b == b;
    } else {
      assert (a + b)[0] == a[0] && (a + b)[1..] == a[1..] + b;
      SurvivorsAppend(a[1..], b);
    }
  }

  /** A value survives exactly when it is a non-empty string. */
  lemma SurvivorsOne(v: Value)
    ensures Survivors([v]) == if v.Str? && v.s != "" then [v.s] else []
  {
    assert [v][1..] == [];
  }

  /** The media list: entry i is an IMAGE whose source is the i-th survivor and
      whose alt text is "Product image {i + 1}". */
  function MediaInputs(urls: seq<string>): (r: seq<MediaInput>)
    ensures |r| == |urls|
    ensures forall i :: 0 <= i < |urls| ==>
      r[i] == MediaInput("IMAGE", urls[i], "Product image " + NatText(i + 1))
  {
    seq(|urls|, i requires 0 <= i < |urls| =>
      MediaInput("IMAGE", urls[i], "Product image " + NatText(i + 1)))
  }

  /** Media entries carry pairwise different alt texts. */
  lemma MediaAltsDistinct(urls: seq<string>, i: nat, j: nat)
    requires i < |urls| && j < |urls| && i != j
    ensures MediaInputs(urls)[i].alt != MediaInputs(urls)[j].alt
  {
    var p := "Product image ";
    if MediaInputs(urls)[i].alt == MediaInputs(urls)[j].alt {
      assert (p + NatText(i + 1))[|p|..] == NatText(i + 1);
      assert (p + NatText(j + 1))[|p|..] == NatText(j + 1);
      NatTextInjective(i + 1, j + 1);
    }
  }

  /** Placeholders made at the same clock reading for different images are
      different. */
  lemma PlaceholdersDistinct(now: nat, i: nat, j: nat)
    requires i != j
    ensures Placeholder(now, i) != Placeholder(now, j)
  {
    if Placeholder(now, i) == Placeholder(now, j) {
      PlaceholderShape(now, i);
      PlaceholderShape(now, j);
      NatTextInjective(now + i, now + j);
    }
  }

  /** A placeholder is the picsum address followed by the decimal text of
      the clock reading plus the index. */
  lemma PlaceholderShape(now: nat, index: nat)
    ensures var r := Placeholder(now, index);
      && StartsWith(r, PlaceholderPrefix)
      && r[|PlaceholderPrefix|..] == NatText(now + index)
  {
    var p := PlaceholderPrefix;
    assert (p + NatText(now + index))[..|p|] == p;
    assert (p + NatText(now + index))[|p|..] == NatText(now + index);
  }

  /** A file name is "image-", the 1-based index in decimal, and ".jpg". */
  lemma ImageFileNameShape(index: nat)
    ensures var r := ImageFileName(index);
      && |r| > 10 && r[..6] == "image-" && r[|r| - 4..] == ".jpg"
      && r[6..|r| - 4] == NatText(index + 1)
  {
    var t := NatText(index + 1);
    assert ("image-" + t + ".jpg")[..6] == "image-";
    assert ("image-" + t + ".jpg")[6..|t| + 6] == t;
  }

  /** Different images get different file names. */
  lemma ImageFileNamesDistinct(i: nat, j: nat)
    requires i != j
    ensures ImageFileName(i) != ImageFileName(j)
  {
    if ImageFileName(i) == ImageFileName(j) {
      ImageFileNameShape(i);
      ImageFileNameShape(j);
      NatTextInjective(i + 1, j + 1);
    }
  }

  // ---------------------------------------------------------------------
  // The media mutation

  /** The reply of productCreateMedia: the created media, or the error thrown
      for top-level GraphQL errors or for user and media user errors. */
  function MediaReply(data: Value): (r: Result<Value>)
    ensures Nullish(data) ==> r == Err(TypeError)
    ensures !Nullish(data) && Truthy(Get(data, "errors")) ==> r.Err?
  {
    var errors :- Prop(data, "errors");
    if Truthy(errors) then
      var message :- JoinedMessages(errors);
      Err(Error(message))
    else
      var payload := Get(Get(data, "data"), "productCreateMedia");
      var userErrors :- Spread(Or(Get(payload, "userErrors"), Arr([])));
      var mediaUserErrors :- Spread(Or(Get(payload, "mediaUserErrors"), Arr([])));
      var all := userErrors + mediaUserErrors;
      if |all| > 0 then
        var message :- JoinedMessages(Arr(all));
        Err(Error(message))
      else
        Ok(Or(Get(payload, "media"), Arr([])))
  }

  /** The `productCreateMedia` payload of a reply. */
  function MediaPayload(data: Value): Value {
    Get(Get(data, "data"), "productCreateMedia")
  }

  /** Top-level GraphQL errors fail with their messages joined by ", ". */
  lemma MediaTopLevelErrors(data: Value, errors: seq<Value>)
    requires Get(data, "errors") == Arr(errors) && !Nullish(data)
    requires forall i :: 0 <= i < |errors| ==> !Nullish(errors[i])
    ensures MediaReply(data) == Err(Error(JoinValues(MessagesOfElems(errors).value, ", ")))
  {
  }

  /** Without top-level errors, the user errors and then the media user errors
      fail with all their messages joined by ", "; with none of either, the
      created media are returned. */
  lemma MediaUserErrors(data: Value, userErrors: seq<Value>, mediaUserErrors: seq<Value>)
    requires !Nullish(data) && !Truthy(Get(data, "errors"))
    requires Get(MediaPayload(data), "userErrors") == Arr(userErrors)
    requires Get(MediaPayload(data), "mediaUserErrors") == Arr(mediaUserErrors)
    requires forall i :: 0 <= i < |userErrors + mediaUserErrors| ==> !Nullish((userErrors + mediaUserErrors)[i])
    ensures userErrors + mediaUserErrors != [] ==>
      MediaReply(data) == Err(Error(JoinValues(MessagesOfElems(userErrors + mediaUserErrors).value, ", ")))
    ensures userErrors + mediaUserErrors == [] ==>
      MediaReply(data) == Ok(Or(Get(MediaPayload(data), "media"), Arr([])))
  {
  }

  // ---------------------------------------------------------------------
  // uploadProductImages

  /** uploadProductImages: the created media (or `[]`), or the error thrown,
      and the requests issued. */
  function UploadProductImages(net: Network, decode: Base64Decoder, env: Env, productId: Value, images: Value)
    : (r: Run<Value>)
    // a falsy or empty list gives [] and issues no request
    ensures !Truthy(images) || Get(images, "length") == Number(0) ==> r == Run(Ok(Arr([])), [])
    // `images.map` on anything else that is not an array throws
    ensures Truthy(images) && Get(images, "length") != Number(0) && !images.Arr? ==> r == Run(Err(TypeError), [])
    // the media mutation is sent at most once, and last
    ensures forall k :: 0 <= k < |r.sent| - 1 ==> !r.sent[k].ProductCreateMedia?
  {
    if !Truthy(images) || Get(images, "length") == Number(0) then
      Run(Ok(Arr([])), [])
    else if !images.Arr? then
      // `images.map` is not a function
      Run(Err(TypeError), [])
    else
      var batch := ProcessImages(net, decode, env, images.elems, 0);
      var urls := Survivors(batch.values);
      if urls == [] then
        Run(Ok(Arr([])), batch.sent)
      else
        var request := ProductCreateMedia(productId, MediaInputs(urls));
        match net(request)
        case Err(e) => Run(Err(e), batch.sent + [request])
        case Ok(data) => Run(MediaReply(data), batch.sent + [request])
  }

  /** When no image survives, the result is `[]` and the media mutation is
      not sent; only staged uploads may have been requested. */
  lemma NothingSurvivesNoMutation(net: Network, decode: Base64Decoder, env: Env, productId: Value, images: seq<Value>)
    requires images != []
    requires Survivors(ProcessImages(net, decode, env, images, 0).values) == []
    ensures var r := UploadProductImages(net, decode, env, productId, Arr(images));
      && r.result == Ok(Arr([]))
      && forall k :: 0 <= k < |r.sent| ==> !r.sent[k].ProductCreateMedia?
  {
  }

  /** The media mutation, when sent, is the last request, and its entries are
      the survivors in input order. */
  lemma MediaMutationShape(net: Network, decode: Base64Decoder, env: Env, productId: Value, images: seq<Value>)
    requires images != []
    ensures var r := UploadProductImages(net, decode, env, productId, Arr(images));
      var batch := ProcessImages(net, decode, env, images, 0);
      var urls := Survivors(batch.values);
      && (urls == [] <==> (forall k :: 0 <= k < |r.sent| ==> !r.sent[k].ProductCreateMedia?))
      && (urls != [] ==> r.sent == batch.sent + [ProductCreateMedia(productId, MediaInputs(urls))])
      && (urls != [] && net(ProductCreateMedia(productId, MediaInputs(urls))).Ok? ==>
            r.result == MediaReply(net(ProductCreateMedia(productId, MediaInputs(urls))).value))
      // a failed media request is rethrown
      && (urls != [] && net(ProductCreateMedia(productId, MediaInputs(urls))).Err? ==>
            r.result == Err(net(ProductCreateMedia(productId, MediaInputs(urls))).error))
  {
    var batch := ProcessImages(net, decode, env, images, 0);
    var urls := Survivors(batch.values);
    var r := UploadProductImages(net, decode, env, productId, Arr(images));
    if urls != [] {
      assert r.sent[|r.sent| - 1].ProductCreateMedia?;
    }
  }

  /** An http(s) URL is kept verbatim, without any request. */
  lemma UrlKeptVerbatim(net: Network, decode: Base64Decoder, env: Env, s: string, index: nat)
    requires IsHttpUrl(s)
    ensures ProcessImage(net, decode, env, Str(s), index) == Processed(Str(s), [])
  {
  }

  /** Non-strings, empty strings and short non-URL strings become null
      without any request, and null never survives the filter. */
  lemma JunkDropped(net: Network, decode: Base64Decoder, env: Env, image: Value, index: nat)
    requires !image.Str? || image.s == "" || (!IsHttpUrl(image.s) && |image.s| <= 100)
    ensures ProcessImage(net, decode, env, image, index) == Processed(Null, [])
    ensures Survivors([ProcessImage(net, decode, env, image, index).value]) == []
  {
    SurvivorsOne(Null);
  }

  /** A long non-URL string is always sent to the staged upload (the length
      guard of the upload never fires from here). It becomes the upload's
      `resourceUrl`, or the placeholder when the upload fails; so it is dropped
      only when the upload succeeds without a non-empty string `resourceUrl`. */
  lemma Base64Uploaded(net: Network, decode: Base64Decoder, env: Env, s: string, index: nat)
    requires !IsHttpUrl(s) && |s| > 100
    ensures var up := UploadBase64ToShopify(net, decode, s, ImageFileName(index), env.nonce(index));
      var p := ProcessImage(net, decode, env, Str(s), index);
      && up.sent != [] && up.sent[0] == StagedUploadCreate(ImageFileName(index))
      && p.sent == up.sent
      && (up.result.Ok? ==> p.value == up.result.value)
      && (up.result.Err? ==> p.value == Str(Placeholder(env.clock(index), index)))
      && (Survivors([p.value]) == [] ==> up.result.Ok? && !(up.result.value.Str? && up.result.value.s != ""))
  {
    var p := ProcessImage(net, decode, env, Str(s), index);
    SurvivorsOne(p.value);
  }

  /** Direct URLs only: the media mutation lists them in their order, and it
      is the only request. */
  lemma UrlsOnly(net: Network, decode: Base64Decoder, env: Env, productId: Value, urls: seq<string>)
    requires urls != []
    requires forall i :: 0 <= i < |urls| ==> IsHttpUrl(urls[i])
    ensures UploadProductImages(net, decode, env, productId, Arr(Strs(urls))).sent
         == [ProductCreateMedia(productId, MediaInputs(urls))]
  {
    var images := Strs(urls);
    UrlsSendNothing(net, decode, env, images, 0);
    var batch := ProcessImages(net, decode, env, images, 0);
    forall i | 0 <= i < |urls|
      ensures batch.values[i] == Str(urls[i]) && urls[i] != ""
    {
      UrlKeptVerbatim(net, decode, env, urls[i], i);
      assert |urls[i]| >= 7;
    }
    SurvivingStrings(batch.values, urls);
    NumberInjective(|urls|, 0);
    var request := ProductCreateMedia(productId, MediaInputs(urls));
    assert batch.sent + [request] == [request];
  }

  /** Processing http(s) URLs issues no request. */
  lemma {:induction false} UrlsSendNothing(net: Network, decode: Base64Decoder, env: Env, images: seq<Value>, first: nat)
    requires forall i :: 0 <= i < |images| ==> images[i].Str? && IsHttpUrl(images[i].s)
    ensures ProcessImages(net, decode, env, images, first).sent == []
  {
    if images != [] {
      UrlKeptVerbatim(net, decode, env, images[0].s, first);
      UrlsSendNothing(net, decode, env, images[1..], first + 1);
    }
  }

  /** Non-empty strings all survive the filter, in order. */
  lemma {:induction false} SurvivingStrings(values: seq<Value>, strs: seq<string>)
    requires |values| == |strs|
    requires forall i :: 0 <= i < |values| ==> values[i] == Str(strs[i]) && strs[i] != ""
    ensures Survivors(values) == strs
  {
    if values != [] {
      SurvivingStrings(values[1..], strs[1..]);
      assert [strs[0]] + strs[1..] == strs;
    }
  }
}

=== FILE: utf8.dfy ===
/**
  Bytes and the UTF-8 encoding that `Buffer.from(string)` applies to the text
  parts of the multipart body.
*/
module Utf8 {

  newtype byte = b: int | 0 <= b < 256

  datatype Option<T> = None | Some(value: T)

  /** The UTF-8 encoding of one code point (RFC 3629, section 3). */
  function EncodeChar(c: char): (r: seq<byte>)
    ensures 1 <= |r| <= 4
    ensures (|r| == 1) == (c as int < 0x80)
    ensures |r| == 1 ==> r[0] as int == c as int
  {
    var n := c as int;
    if n < 0x80 then
      [n as byte]
    else if n < 0x800 then
      [(0xC0 + n / 0x40) as byte, (0x80 + n % 0x40) as byte]
    else if n < 0x10000 then
      [(0xE0 + n / 0x1000) as byte, (0x80 + (n / 0x40) % 0x40) as byte, (0x80 + n % 0x40) as byte]
    else
      [(0xF0 + n / 0x40000) as byte, (0x80 + (n / 0x1000) % 0x40) as byte,
       (0x80 + (n / 0x40) % 0x40) as byte, (0x80 + n % 0x40) as byte]
  }

  /** The UTF-8 encoding of a string. */
  function Encode(s: string): (r: seq<byte>)
    ensures |s| <= |r| <= 4 * |s|
  {
    if s == [] then [] else EncodeChar(s[0]) + Encode(s[1..])
  }

  /** The number of bytes a sequence starting with this lead byte has, or 0
      when b cannot start one. */
  function SequenceLength(b: byte): nat {
    if b < 0x80 then 1
    else if 0xC0 <= b < 0xE0 then 2
    else if 0xE0 <= b < 0xF0 then 3
    else if 0xF0 <= b < 0xF8 then 4
    else 0
  }

  /** A continuation byte, 10xxxxxx. */
  predicate IsContinuation(b: byte) {
    0x80 <= b < 0xC0
  }

  /** The code point a lead byte and its continuation bytes carry. */
  function CodePointOf(r: seq<byte>): int
    requires 1 <= |r| <= 4
  {
    if |r| == 1 then r[0] as int
    else if |r| == 2 then (r[0] as int - 0xC0) * 0x40 + (r[1] as int - 0x80)
    else if |r| == 3 then
      (r[0] as int - 0xE0) * 0x1000 + (r[1] as int - 0x80) * 0x40 + (r[2] as int - 0x80)
    else
      (r[0] as int - 0xF0) * 0x40000 + (r[1] as int - 0x80) * 0x1000
        + (r[2] as int - 0x80) * 0x40 + (r[3] as int - 0x80)
  }

  /** The smallest code point that needs k bytes: shorter forms are overlong. */
  function Smallest(k: nat): int {
    if k == 2 then 0x80 else if k == 3 then 0x800 else if k == 4 then 0x10000 else 0
  }

  /** A Unicode scalar value: a code point that is not a surrogate. */
  predicate IsScalar(v: int) {
    0 <= v < 0xD800 || 0xE000 <= v < 0x110000
  }

  /** Strict UTF-8 decoding: None for a bad lead or continuation byte, a
      truncated sequence, an overlong form, a surrogate or a value past
      U+10FFFF. */
  function Decode(bytes: seq<byte>): Option<string>
    decreases |bytes|
  {
    if bytes == [] then Some([])
    else
      var k := SequenceLength(bytes[0]);
      if k == 0 || |bytes| < k then None
      else if !(forall i :: 1 <= i < k ==> IsContinuation(bytes[i])) then None
      else
        var v := CodePointOf(bytes[..k]);
        if v < Smallest(k) || !IsScalar(v) then None
        else
          match Decode(bytes[k..])
          case None => None
          case Some(rest) => Some([v as char] + rest)
  }

  /** One encoded code point: its lead byte announces its length, the rest
      are continuation bytes, and it carries the code point in shortest form. */
  predicate DecodesTo(r: seq<byte>, c: char) {
    && 1 <= |r| <= 4
    && SequenceLength(r[0]) == |r|
    && (forall i :: 1 <= i < |r| ==> IsContinuation(r[i]))
    && CodePointOf(r) == c as int
    && Smallest(|r|) <= c as int
  }

  /** Every code point encodes that way. */
  lemma EncodeCharDecodes(c: char)
    ensures DecodesTo(EncodeChar(c), c)
  {
    var n := c as int;
    if n < 0x80 {
    } else if n < 0x800 {
      TwoBytes(c);
    } else if n < 0x10000 {
      ThreeBytes(c);
    } else {
      FourBytes(c);
    }
  }

  // The multi-byte ranges, one lemma each.

  lemma TwoBytes(c: char)
    requires 0x80 <= c as int < 0x800
    ensures DecodesTo(EncodeChar(c), c)
  {
    var n := c as int;
    assert n == (n / 0x40) * 0x40 + n % 0x40;
  }

  lemma ThreeBytes(c: char)
    requires 0x800 <= c as int < 0x10000
    ensures DecodesTo(EncodeChar(c), c)
  {
    var n := c as int;
    assert n / 0x40 == (n / 0x1000) * 0x40 + (n / 0x40) % 0x40;
    assert n == (n / 0x40) * 0x40 + n % 0x40;
  }

  lemma FourBytes(c: char)
    requires 0x10000 <= c as int
    ensures DecodesTo(EncodeChar(c), c)
  {
    var n := c as int;
    assert n / 0x1000 == (n / 0x40000) * 0x40 + (n / 0x1000) % 0x40;
    assert n / 0x40 == (n / 0x1000) * 0x40 + (n / 0x40) % 0x40;
    assert n == (n / 0x40) * 0x40 + n % 0x40;
  }

  /** Decoding undoes encoding, so different strings never share bytes. */
  lemma {:induction false} DecodeEncode(s: string)
    ensures Decode(Encode(s)) == Some(s)
  {
    if s != [] {
      var head := EncodeChar(s[0]);
      var bytes := Encode(s);
      EncodeCharDecodes(s[0]);
      assert bytes[..|head|] == head;
      assert bytes[|head|..] == Encode(s[1..]);
      DecodeEncode(s[1..]);
      assert [s[0]] + s[1..] == s;
    }
  }

  /** Every code point is below 0x80. */
  predicate IsAscii(s: string) {
    forall i :: 0 <= i < |s| ==> s[i] as int < 0x80
  }

  /** Encoding distributes over concatenation: the bytes of a joined text are
      the bytes of its parts, in order. */
  lemma {:induction false} EncodeAppend(a: string, b: string)
    ensures Encode(a + b) == Encode(a) + Encode(b)
  {
    if a == [] {
      assert a + b == b;
    } else {
      var c := EncodeChar(a[0]);
      assert (a + b)[0] == a[0];
      assert (a + b)[1..] == a[1..] + b;
      assert Encode(a + b) == c + Encode(a[1..] + b);
      EncodeAppend(a[1..], b);
      assert c + (Encode(a[1..]) + Encode(b)) == (c + Encode(a[1..])) + Encode(b);
    }
  }

  /** ASCII text encodes to one byte per character, each equal to its code. */
  lemma {:induction false} EncodeAscii(s: string)
    requires IsAscii(s)
    ensures |Encode(s)| == |s|
    ensures forall i :: 0 <= i < |s| ==> Encode(s)[i] as int == s[i] as int
  {
    if s != [] {
      EncodeAscii(s[1..]);
    }
  }
}

=== FILE: validate_product.dfy ===
/**
  The product validator (app/utils/validateProduct.js): three checks run in a
  fixed order, the first that fails giving its message, `null` when all pass.
*/
module ValidateProduct {
  import opened JsValue

  const MissingTitle := "Missing product title"
  const MissingDescription := "Missing description"
  const NoVariant := "At least one variant required"

  /** `product?.variants?.length` is truthy. */
  predicate HasVariants(product: Value) {
    Truthy(Get(Get(product, "variants"), "length"))
  }

  /** validateProduct: `null` when the product passes, otherwise the message
      of the first check that fails. */
  function ValidateProduct(product: Value): (r: Value)
    // passes exactly when all three fields are present
    ensures r == Null <==>
      Truthy(Get(product, "title")) && Truthy(Get(product, "descriptionHtml")) && HasVariants(product)
    // a missing title wins over everything else
    ensures !Truthy(Get(product, "title")) ==> r == Str(MissingTitle)
    ensures Truthy(Get(product, "title")) && !Truthy(Get(product, "descriptionHtml"))
      ==> r == Str(MissingDescription)
    ensures Truthy(Get(product, "title")) && Truthy(Get(product, "descriptionHtml")) && !HasVariants(product)
      ==> r == Str(NoVariant)
  {
    if !Truthy(Get(product, "title")) then Str(MissingTitle)
    else if !Truthy(Get(product, "descriptionHtml")) then Str(MissingDescription)
    else if !HasVariants(product) then Str(NoVariant)
    else Null
  }

  /** A null or undefined product is reported as lacking a title. */
  lemma NullishProductLacksTitle(product: Value)
    requires Nullish(product)
    ensures ValidateProduct(product) == Str(MissingTitle)
  {
  }

  /** For a product whose `variants` is an array, the variant check passes
      exactly when the array is non-empty. */
  lemma VariantArrayCheck(product: Value)
    requires Get(product, "variants").Arr?
    ensures HasVariants(product) <==> |Get(product, "variants").elems| > 0
  {
  }

  /** A missing or null `variants` field never passes the variant check. */
  lemma MissingVariantsFail(product: Value)
    requires Truthy(Get(product, "title")) && Truthy(Get(product, "descriptionHtml"))
    requires Nullish(Get(product, "variants"))
    ensures ValidateProduct(product) == Str(NoVariant)
  {
  }
}
